=== FILE: README.md ===
# rubyrep `ProxyCursor`: the primary-key range query

rubyrep's `ProxyCursor` walks one table of a database in primary-key order. It runs on the proxy side of a replication or scan. It is created for a session and a table, and caches that table's primary-key names. For a lower and an upper key bound, each optional, it builds the query

    select <columns> from <table>[ where (<keys>) >= (<values>)][ and|where (<keys>) <= (<values>)] order by <keys>

and `destroy` clears the underlying database cursor and forgets it.

This project is a Dafny model of that query builder, its construction rule and its teardown rule:

- `Decimal`: integer literals as Ruby's `Integer#to_s` renders them, and a reader for them.
- `SqlValue`: bound values (integer or string) and their SQL literal. An integer is bare. A string uses PostgreSQL's escape-string form `E'…'`.
- `ValueList`: comma-separated literal tuples and their reader.
- `Text`: joining with a separator, and single-spacing.
- `Normalize`: the values of `strip` and `squeeze(' ')`, the normalisation the test suite applies to its expected queries through the bang forms `strip!` and `squeeze!(' ')`.
- `RangeQuery`: `ConstructQuery` and the four shapes of its result.
- `QueryDecode`: a left inverse of `ConstructQuery` for a nonempty key list and bounds whose string values hold no quote or backslash. From a query built that way it recovers which bounds were given and their values in key order.
- `QueryForm`: a query built from single-spaced key, column and table names, with no run of spaces in a string bound, is already in the suite's normal form.
- `ProxyCursors`: the cursor record with `New`, `Query` and `Destroy`.
- `ProxyCursorSpec`: each construction, `construct_query` and `destroy` expectation of `spec/proxy_cursor_spec.rb` as a lemma about the model. The `prepare_fetch` expectations are not modelled (see below).

The implementation file of `ProxyCursor` is not part of this model. The behaviour modelled is the behaviour the test file pins down to the character. Where the model has to decide something the tests leave open, such as construction on a table the session does not know, the choice is a modelling decision and is listed below.

## Model

| member | source | states |
|---|---|---|
| ProxyCursors.New | spec/proxy_cursor_spec.rb:10-18 | construction succeeds exactly when the session knows the table and reports a nonempty primary-key list; the new cursor keeps the session and the table, caches exactly that key list, and holds no database cursor; otherwise the error names the table |
| ProxyCursorSpec.InitializeCachesPrimaryKeys | spec/proxy_cursor_spec.rb:10-18 | on the mock session for `dummy_table` with key `dummy_key`, construction yields that session, that table and `["dummy_key"]`, whatever the table's column list |
| RangeQuery.ConstructQuery | spec/proxy_cursor_spec.rb:20-76 | every query starts with the select list and ends with the `order by` clause; it has nothing between them exactly when no bound is given |
| RangeQuery.WhereClause | spec/proxy_cursor_spec.rb:27-52 | the condition part is empty exactly when neither bound is given |
| RangeQuery.NoBoundsQuery | spec/proxy_cursor_spec.rb:20-25 | without bounds the query is `select <cols joined by ", "> from <table> order by <keys joined by ", ">`, with no `where` |
| RangeQuery.LowerBoundOnlyQuery | spec/proxy_cursor_spec.rb:27-34 | a lower bound alone inserts ` where (<keys>) >= (<values>)` between the table name and `order by` |
| RangeQuery.UpperBoundOnlyQuery | spec/proxy_cursor_spec.rb:36-43 | an upper bound alone gets its own ` where (<keys>) <= (<values>)`, with no `and` and no `>=` comparison |
| RangeQuery.BothBoundsQuery | spec/proxy_cursor_spec.rb:45-52 | with both bounds the `>=` comparison comes first and is joined to the `<=` comparison by ` and ` inside one `where` |
| RangeQuery.SingleKeyComparison | spec/proxy_cursor_spec.rb:27-52 | on a one-column key the comparison is `(<key>) <op> (<literal of the value>)` for any key, operator and value |
| RangeQuery.BoundValues | spec/proxy_cursor_spec.rb:59-64 | the bound's values are listed one per key, in primary-key order |
| QueryDecode.DecodeConstructQuery | spec/proxy_cursor_spec.rb:20-76 | reading a generated query back recovers which bounds were given and each bound's values in primary-key order, so the query encodes its bounds faithfully |
| QueryForm.ConstructQueryNormalized | spec/proxy_cursor_spec.rb:31-33 | when every name is single-spaced and no string bound holds a run of spaces, the query is single-spaced and trimmed, so `Normalized` (non-bang `strip` then `squeeze(' ')`) leaves it unchanged |
| Normalize.Normalized | spec/proxy_cursor_spec.rb:31-33 | the normalised text is never longer than the input, is empty or single-spaced, and keeps every non-space character of the stripped input, in order |
| Normalize.NormalizedFixedPoint | spec/proxy_cursor_spec.rb:31-33 | the normalisation leaves a nonempty string unchanged exactly when the string is single-spaced |
| Normalize.NormalizedIdempotent | spec/proxy_cursor_spec.rb:31-33 | normalising twice is the same as normalising once |
| Normalize.Squeeze | spec/proxy_cursor_spec.rb:33 | `squeeze(' ')` never lengthens, keeps the first and the last character, keeps every non-space character in order, and leaves no two adjacent spaces; `Normalize.SqueezeKeeps` is the converse: such a text is left unchanged |
| Normalize.SqueezeKeeps | spec/proxy_cursor_spec.rb:33 | `squeeze(' ')` leaves a text with no two adjacent spaces unchanged; with `Squeeze` it makes texts without runs of spaces exactly its fixed points |
| Normalize.SqueezeRun | spec/proxy_cursor_spec.rb:31-33 | two adjacent spaces squeeze exactly as one space does, whatever surrounds them |
| Normalize.SqueezeSpaces | spec/proxy_cursor_spec.rb:31-33 | a space followed by any run of spaces squeezes exactly as the single space does |
| Normalize.Strip | spec/proxy_cursor_spec.rb:33 | `strip` returns a contiguous middle part of its input with no whitespace at either end, and everything it drops before or after that part is whitespace |
| Normalize.StripPadded | spec/proxy_cursor_spec.rb:31-33 | leading indentation before trimmed text is removed and nothing else is |
| Normalize.NormalizedContinuation | spec/proxy_cursor_spec.rb:31-33 | two indented source lines joined by a line continuation, the first ending in one space, normalise to the two lines joined by a single space when that result is single-spaced |
| Normalize.NormalizedContinuation3 | spec/proxy_cursor_spec.rb:62-65 | the same for three indented source lines |
| ProxyCursors.Query | spec/proxy_cursor_spec.rb:20-76 | `construct_query` on a cursor starts with the select list of the table's columns and ends with `order by` over the cached keys; nothing lies between them exactly when no bound is given; when the table's columns start with its keys, the query starts with `select` and the key names in key order |
| ProxyCursors.Columns | spec/proxy_cursor_spec.rb:20-25 | the selected columns are the session's column list for the cursor's table, paired there with the cached key names; when the table lists its keys first, the columns start with the cached keys |
| ProxyCursors.SelectsKeysFirst | spec/proxy_cursor_spec.rb:54-66 | when the column list starts with the keys, the query starts with `select` followed by the key names in key order |
| SqlValue.Quote | spec/proxy_cursor_spec.rb:68-76 | a literal starts with `E` exactly for a string value; a string `s` becomes `E'` + `s` + `'`; an integer ends in a digit and consists of digits only exactly when it is not negative |
| SqlValue.ReadQuote | spec/proxy_cursor_spec.rb:68-76 | reading back the literal of a plain value yields that value and leaves exactly the text after it |
| SqlValue.QuoteInjective | spec/proxy_cursor_spec.rb:68-76 | distinct plain values have distinct literals |
| Decimal.ShowNat | spec/proxy_cursor_spec.rb:30-33 | the numeral is nonempty, all digits, has no leading zero, and is one digit long exactly for values below ten |
| Decimal.ShowInt | spec/proxy_cursor_spec.rb:30-65 | an integer renders as a nonempty numeral: digits only when it is not negative, otherwise `-` followed by at least one digit; `Decimal.ReadShowInt` reads every rendering back |
| Decimal.ReadShowInt | spec/proxy_cursor_spec.rb:30-33 | reading back the rendering of an integer yields that integer and leaves exactly the text after it |
| Decimal.ShowIntInjective | spec/proxy_cursor_spec.rb:59-65 | distinct integers render distinctly |
| ValueList.Literals | spec/proxy_cursor_spec.rb:59-65 | one literal per value, in order, each the value's quoting |
| ValueList.ReadValueTuple | spec/proxy_cursor_spec.rb:59-65 | a joined tuple of plain literals closed by `)` reads back as the original values, in order, and leaves the rest |
| Text.Join | spec/proxy_cursor_spec.rb:23-65 | joining no names gives the empty text and joining one name gives that name; `Text.JoinAppend` states how longer lists split |
| Text.JoinAppend | spec/proxy_cursor_spec.rb:63-65 | joining two nonempty lists back to back is joining each and putting one separator between them, so `dummy_key1, dummy_key2` is the two names with `, ` between |
| Text.SingleSpacedJoin | spec/proxy_cursor_spec.rb:63-65 | joining single-spaced names with `", "` gives a single-spaced list |
| ProxyCursorSpec.QueryWithoutConditions | spec/proxy_cursor_spec.rb:20-25 | the `dummy_table` query without bounds is `select dummy_key, dummy_column from dummy_table order by dummy_key` |
| ProxyCursorSpec.QueryWithFromCondition | spec/proxy_cursor_spec.rb:27-34 | with lower bound `dummy_key => 1` the query carries ` where (dummy_key) >= (1)` |
| ProxyCursorSpec.QueryWithToCondition | spec/proxy_cursor_spec.rb:36-43 | with upper bound `dummy_key => 1` the query carries ` where (dummy_key) <= (1)` |
| ProxyCursorSpec.QueryWithBothConditions | spec/proxy_cursor_spec.rb:45-52 | with bounds 0 and 1 the query carries ` where (dummy_key) >= (0) and (dummy_key) <= (1)` |
| ProxyCursorSpec.QueryWithCombinedPrimaryKey | spec/proxy_cursor_spec.rb:54-66 | for a two-column key, both tuples and the `order by` list keep key order: `(dummy_key1, dummy_key2) >= (0, 1) and (dummy_key1, dummy_key2) <= (2, 3)` |
| ProxyCursorSpec.QueryQuotesColumnValues | spec/proxy_cursor_spec.rb:68-76 | string bounds `a` and `b` appear as `E'a'` and `E'b'` |
| ProxyCursorSpec.FromConditionAsWritten | spec/proxy_cursor_spec.rb:30-33 | the suite's lower-bound expectation, as its two indented source lines join, normalises to the generated query |
| ProxyCursorSpec.ToConditionAsWritten | spec/proxy_cursor_spec.rb:39-42 | the suite's upper-bound expectation, as its two indented source lines join, normalises to the generated query |
| ProxyCursorSpec.BothConditionsAsWritten | spec/proxy_cursor_spec.rb:48-51 | the suite's two-bound expectation, as its two indented source lines join, normalises to the generated query |
| ProxyCursorSpec.CombinedPrimaryKeyAsWritten | spec/proxy_cursor_spec.rb:59-65 | the suite's two-column-key expectation, as its three indented source lines join, normalises to the generated query |
| ProxyCursorSpec.QuotedValuesAsWritten | spec/proxy_cursor_spec.rb:72-76 | the suite's quoting expectation, as its three indented source lines join, normalises to the generated query |
| ProxyCursors.Destroy | spec/proxy_cursor_spec.rb:94-104 | `destroy` clears the held database cursor, and only that one, and leaves no cursor; session, table and cached keys are unchanged |
| ProxyCursors.DestroyClearsOnce | spec/proxy_cursor_spec.rb:94-104 | a held cursor is cleared exactly once, even when `destroy` is called twice |
| ProxyCursors.DestroyKeepsValid | spec/proxy_cursor_spec.rb:94-104 | after `destroy` the cursor is still usable for another query |
| ProxyCursorSpec.DestroyClearsAndForgets | spec/proxy_cursor_spec.rb:94-104 | destroying the `dummy_table` cursor that holds a database cursor clears that cursor and leaves none |

## Left out

- `prepare_fetch` and row reading (spec/proxy_cursor_spec.rb:77-81, 84-91) are not modelled. They run the query against a live database and wrap the result in `TypeCastingCursor`, which is I/O plus an external decoder.
- The configuration and session plumbing is reduced to a map from table name to its key list and column list: `Initializer.configuration`, `proxied_config`, `ProxySession` and `create_mock_session`.
- SqlValue.Quote: embedded quotes and backslashes in string values are not escaped. Where a round trip needs it, the lemmas require plain text (no `'` and no `\`). The tests only use plain letters.
- SqlValue.Quote: only integer and string values are modelled. Ruby's `nil`, floats, dates and other column types are not.
- RangeQuery.ConstructQuery: a bound that misses a key column is excluded by `requires`, not modelled as an error. Keys a bound holds beyond the primary key are ignored.
- Normalize.Squeeze: the bang methods `strip!` and `squeeze!` return `nil` when nothing changes. The model uses the non-bang result throughout. The suite's expected strings always change, so for them the two agree.
- Text.IsWhitespace: Ruby's `strip` treats space, `\t` to `\r` and `\0` as whitespace. Squeezing touches spaces only.
- ProxyCursors.New: construction is modelled as failing (`UnknownTable`, `NoPrimaryKey`) for a table the session does not know or one without a primary key. This is a modelling choice: the test file shows only the success case.
- ProxyCursors.Destroy: with no database cursor held, `destroy` clears nothing. A second `destroy` is therefore a no-op rather than a call on `nil`.
- Concurrency and the lifetime of server-side resources are not modelled.

=== FILE: decimal.dfy ===
/**
 Decimal rendering of integers, as Ruby's `Integer#to_s` produces it when an
 integer bound value is interpolated into SQL, together with the matching
 reader that recovers the integer from its digits.
 */
module Decimal {

  import opened Wrappers
  import opened Text

  predicate IsDigit(c: char) {
    '0' <= c <= '9'
  }

  predicate AllDigits(s: string) {
    forall i :: 0 <= i < |s| ==> IsDigit(s[i])
  }

  function DigitChar(d: nat): (c: char)
    requires d < 10
    ensures IsDigit(c)
    ensures DigitValue(c) == d
  {
    ['0', '1', '2', '3', '4', '5', '6', '7', '8', '9'][d]
  }

  function DigitValue(c: char): nat
    requires IsDigit(c)
  {
    (c as int - '0' as int) as nat
  }

  /** The canonical decimal numeral of `n`: digits only, no leading zero. */
  function ShowNat(n: nat): (r: string)
    ensures |r| > 0 && AllDigits(r)
    ensures r[0] == '0' ==> n == 0 && r == "0"
    ensures n < 10 <==> |r| == 1
  {
    if n < 10 then [DigitChar(n)] else ShowNat(n / 10) + [DigitChar(n % 10)]
  }

  /** Ruby's `Integer#to_s`: a minus sign in front of the numeral of a negative number. */
  function ShowInt(i: int): (r: string)
    ensures |r| > 0
    ensures i >= 0 ==> AllDigits(r)
    ensures i < 0 ==> r[0] == '-' && |r| > 1 && AllDigits(r[1..])
  {
    if i < 0 then "-" + ShowNat(-i) else ShowNat(i)
  }

  /** The number a string of digits denotes, most significant digit first. */
  function DigitsValue(ds: string): nat
    requires AllDigits(ds)
  {
    if |ds| == 0 then 0 else DigitsValue(ds[..|ds| - 1]) * 10 + DigitValue(ds[|ds| - 1])
  }

  /** The length of the run of digits at the front of `s`. */
  function DigitSpan(s: string): (k: nat)
    ensures k <= |s|
    ensures AllDigits(s[..k])
    ensures k < |s| ==> !IsDigit(s[k])
  {
    if |s| == 0 || !IsDigit(s[0]) then 0 else 1 + DigitSpan(s[1..])
  }

  /** Reads a numeral at the front of `s`: its value and the text after it. */
  function ReadNat(s: string): (r: Option<(nat, string)>)
    ensures r.Some? ==> |r.value.1| < |s|
  {
    var k := DigitSpan(s);
    if k == 0 then None else Some((DigitsValue(s[..k]), s[k..]))
  }

  /**
   Reads an optionally negative integer at the front of `s`, returning it with
   the text after the numeral, or nothing when `s` does not start with one.
   */
  function ReadInt(s: string): (r: Option<(int, string)>)
    ensures r.Some? ==> |r.value.1| < |s|
  {
    if |s| > 0 && s[0] == '-' then
      match ReadNat(s[1..])
      case None => None
      case Some((n, rest)) => Some((0 - n as int, rest))
    else
      match ReadNat(s)
      case None => None
      case Some((n, rest)) => Some((n as int, rest))
  }

  lemma {:induction false} DigitsValueOfShowNat(n: nat)
    ensures DigitsValue(ShowNat(n)) == n
    decreases n
  {
    var r := ShowNat(n);
    if n < 10 {
      assert r[..|r| - 1] == [];
    } else {
      assert r[..|r| - 1] == ShowNat(n / 10);
      DigitsValueOfShowNat(n / 10);
    }
  }

  lemma {:induction false} DigitSpanOfDigits(ds: string, rest: string)
    requires AllDigits(ds)
    requires |rest| == 0 || !IsDigit(rest[0])
    ensures DigitSpan(ds + rest) == |ds|
    decreases |ds|
  {
    if |ds| > 0 {
      assert (ds + rest)[1..] == ds[1..] + rest;
      DigitSpanOfDigits(ds[1..], rest);
    } else {
      assert ds + rest == rest;
    }
  }

  /** Reading the digits of `ShowNat(n)` followed by a non-digit yields `n` and the rest. */
  lemma ReadShowNat(n: nat, rest: string)
    requires |rest| == 0 || !IsDigit(rest[0])
    ensures ReadNat(ShowNat(n) + rest) == Some((n, rest))
  {
    var ds := ShowNat(n);
    DigitSpanOfDigits(ds, rest);
    DigitsValueOfShowNat(n);
    assert (ds + rest)[..|ds|] == ds;
    assert (ds + rest)[|ds|..] == rest;
  }

  /**
   Round trip: reading back the rendering of `i`, followed by anything that
   does not continue the numeral, yields `i` and leaves exactly the rest.
   */
  lemma ReadShowInt(i: int, rest: string)
    requires |rest| == 0 || !IsDigit(rest[0])
    ensures ReadInt(ShowInt(i) + rest) == Some((i, rest))
  {
    if i < 0 {
      ReadShowNegative(i, rest);
    } else {
      ReadShowNonNegative(i, rest);
    }
  }

  lemma ReadShowNegative(i: int, rest: string)
    requires i < 0
    requires |rest| == 0 || !IsDigit(rest[0])
    ensures ReadInt(ShowInt(i) + rest) == Some((i, rest))
  {
    var n: nat := -i;
    var d := ShowNat(n);
    assert ShowInt(i) == "-" + d;
    Assoc("-", d, rest);
    ReadShowNat(n, rest);
    ReadMinus(d + rest, n, rest);
  }

  /** A leading `-` negates the numeral that follows it. */
  lemma ReadMinus(s: string, n: nat, rest: string)
    requires ReadNat(s) == Some((n, rest))
    ensures ReadInt("-" + s) == Some((-(n as int), rest))
  {
    assert ("-" + s)[1..] == s;
  }

  lemma ReadShowNonNegative(i: int, rest: string)
    requires i >= 0
    requires |rest| == 0 || !IsDigit(rest[0])
    ensures ReadInt(ShowInt(i) + rest) == Some((i, rest))
  {
    var t := ShowNat(i) + rest;
    ReadShowNat(i, rest);
    assert ShowInt(i) + rest == t;
    assert t[0] != '-' by { assert t[0] == ShowNat(i)[0] && IsDigit(ShowNat(i)[0]); }
  }

  /** Distinct integers render distinctly. */
  lemma ShowIntInjective(i: int, j: int)
    requires ShowInt(i) == ShowInt(j)
    ensures i == j
  {
    ReadShowInt(i, "");
    ReadShowInt(j, "");
    assert ShowInt(i) + "" == ShowInt(i);
    assert ShowInt(j) + "" == ShowInt(j);
  }
}

=== FILE: normalize.dfy ===
/**
 The normalisation the test suite applies to every expected query before
 comparing it with the generated one: Ruby's `strip!` followed by
 `squeeze!(' ')`. A query that normalisation leaves unchanged is exactly a
 single-spaced one, which is why the tests can compare for equality.
 */
module Normalize {

  import opened Text

  /** Ruby's `lstrip`: drop leading whitespace. */
  function LStrip(s: string): (r: string)
    ensures |r| <= |s| && r == s[|s| - |r|..]
    ensures |r| > 0 ==> !IsWhitespace(r[0])
    ensures forall i :: 0 <= i < |s| - |r| ==> IsWhitespace(s[i])
  {
    if |s| > 0 && IsWhitespace(s[0]) then LStrip(s[1..]) else s
  }

  /** Ruby's `rstrip`: drop trailing whitespace. */
  function RStrip(s: string): (r: string)
    ensures |r| <= |s| && r == s[..|r|]
    ensures |r| > 0 ==> !IsWhitespace(r[|r| - 1])
    ensures forall i :: |r| <= i < |s| ==> IsWhitespace(s[i])
  {
    if |s| > 0 && IsWhitespace(s[|s| - 1]) then RStrip(s[..|s| - 1]) else s
  }

  /**
   Ruby's `strip`: the longest middle part of `s` with whitespace at neither
   end; everything dropped before and after it is whitespace.
   */
  function Strip(s: string): (r: string)
    ensures |r| <= |s|
    ensures |r| > 0 ==> !IsWhitespace(r[0]) && !IsWhitespace(r[|r| - 1])
    ensures |r| == |s| ==> r == s
    ensures exists i ::
              && 0 <= i <= |s| - |r|
              && r == s[i..][..|r|]
              && (forall k :: 0 <= k < i ==> IsWhitespace(s[k]))
              && (forall k :: i + |r| <= k < |s| ==> IsWhitespace(s[k]))
  {
    StripParts(s);
    LStrip(RStrip(s))
  }

  /** `lstrip` after `rstrip` keeps a middle part and drops only whitespace around it. */
  lemma StripParts(s: string)
    ensures var r := LStrip(RStrip(s)); var i := |RStrip(s)| - |r|;
      && 0 <= i <= |s| - |r|
      && r == s[i..][..|r|]
      && (forall k :: 0 <= k < i ==> IsWhitespace(s[k]))
      && (forall k :: i + |r| <= k < |s| ==> IsWhitespace(s[k]))
  {
    var t := RStrip(s);
    var r := LStrip(t);
    var i := |t| - |r|;
    assert r == s[i..][..|r|];
    forall k | 0 <= k < i ensures IsWhitespace(s[k]) {
      assert s[k] == t[k];
    }
  }

  /** The characters of `s` other than spaces, in order. */
  function NonSpaces(s: string): (r: string)
    ensures |r| <= |s|
    ensures forall i :: 0 <= i < |r| ==> r[i] != ' '
  {
    if |s| == 0 then [] else (if s[0] == ' ' then [] else [s[0]]) + NonSpaces(s[1..])
  }

  /**
   Ruby's `squeeze(' ')`: every run of spaces collapses to one space; all
   other characters are kept, in order.
   */
  function Squeeze(s: string): (r: string)
    ensures |r| <= |s|
    ensures |s| > 0 ==> |r| > 0 && r[0] == s[0] && r[|r| - 1] == s[|s| - 1]
    ensures NoDoubleSpace(r)
    ensures NonSpaces(r) == NonSpaces(s)
  {
    if |s| < 2 then s
    else if s[0] == ' ' && s[1] == ' ' then Squeeze(s[1..])
    else
      var t := Squeeze(s[1..]);
      assert ([s[0]] + t)[1..] == t;
      [s[0]] + t
  }

  /**
   The value of `strip` followed by `squeeze(' ')`: what the test suite's
   `strip!.squeeze!(' ')` leaves in an expected query. It is empty or
   single-spaced, and keeps the non-space characters of the stripped text.
   */
  function Normalized(s: string): (r: string)
    ensures |r| <= |s|
    ensures |r| == 0 || SingleSpaced(r)
    ensures NonSpaces(r) == NonSpaces(Strip(s))
  {
    Squeeze(Strip(s))
  }

  /** `squeeze(' ')` leaves a text without two adjacent spaces unchanged. */
  lemma {:induction false} SqueezeKeeps(s: string)
    requires NoDoubleSpace(s)
    ensures Squeeze(s) == s
  {
    if |s| >= 2 {
      assert !(s[0] == ' ' && s[1] == ' ');
      assert NoDoubleSpace(s[1..]) by {
        forall i | 0 < i < |s[1..]| ensures !(s[1..][i - 1] == ' ' && s[1..][i] == ' ') {
          assert s[1..][i - 1] == s[i] && s[1..][i] == s[i + 1];
        }
      }
      SqueezeKeeps(s[1..]);
      assert s == [s[0]] + s[1..];
    }
  }

  /**
   Normalisation leaves a nonempty string unchanged exactly when it is
   single-spaced: trimmed at both ends and free of runs of spaces.
   */
  lemma NormalizedFixedPoint(s: string)
    requires |s| > 0
    ensures Normalized(s) == s <==> SingleSpaced(s)
  {
    if SingleSpaced(s) {
      assert RStrip(s) == s;
      assert LStrip(s) == s;
      SqueezeKeeps(s);
    }
    if Normalized(s) == s {
      var t := Strip(s);
      assert |t| == |s|;
    }
  }

  /** Normalising twice is the same as normalising once. */
  lemma NormalizedIdempotent(s: string)
    ensures Normalized(Normalized(s)) == Normalized(s)
  {
    var n := Normalized(s);
    if |n| > 0 {
      var t := Strip(s);
      assert SingleSpaced(n);
      NormalizedFixedPoint(n);
    }
  }

  /** Two adjacent spaces squeeze exactly as one space does. */
  lemma {:induction false} SqueezeRun(a: string, c: string)
    ensures Squeeze(a + "  " + c) == Squeeze(a + " " + c)
    decreases |a|
  {
    var s, t := a + "  " + c, a + " " + c;
    if |a| == 0 {
      assert s == " " + t;
      assert s[1..] == t;
    } else {
      assert s[1..] == a[1..] + "  " + c;
      assert t[1..] == a[1..] + " " + c;
      assert s[1] == t[1];
      SqueezeRun(a[1..], c);
    }
  }

  /** A space followed by any run of further spaces squeezes to that one space. */
  lemma {:induction false} SqueezeSpaces(a: string, p: string, b: string)
    requires forall i :: 0 <= i < |p| ==> p[i] == ' '
    ensures Squeeze(a + " " + p + b) == Squeeze(a + " " + b)
    decreases |p|
  {
    if |p| > 0 {
      var q := p[1..];
      assert p == " " + q;
      calc {
        Squeeze(a + " " + p + b);
        { assert a + " " + p + b == a + "  " + (q + b); }
        Squeeze(a + "  " + (q + b));
        { SqueezeRun(a, q + b); }
        Squeeze(a + " " + (q + b));
        { assert a + " " + (q + b) == a + " " + q + b; }
        Squeeze(a + " " + q + b);
        { SqueezeSpaces(a, q, b); }
        Squeeze(a + " " + b);
      }
    } else {
      assert a + " " + p + b == a + " " + b;
    }
  }

  /** Leading whitespace in front of a non-whitespace start is exactly what `lstrip` drops. */
  lemma {:induction false} LStripPadding(p: string, x: string)
    requires forall i :: 0 <= i < |p| ==> IsWhitespace(p[i])
    requires |x| == 0 || !IsWhitespace(x[0])
    ensures LStrip(p + x) == x
    decreases |p|
  {
    if |p| > 0 {
      assert (p + x)[1..] == p[1..] + x;
      LStripPadding(p[1..], x);
    } else {
      assert p + x == x;
    }
  }

  /** Strip drops exactly a run of leading spaces in front of a trimmed string. */
  lemma StripPadded(p: string, x: string)
    requires forall i :: 0 <= i < |p| ==> p[i] == ' '
    requires |x| > 0 && !IsWhitespace(x[0]) && !IsWhitespace(x[|x| - 1])
    ensures Strip(p + x) == x
  {
    assert (p + x)[|p + x| - 1] == x[|x| - 1];
    assert RStrip(p + x) == p + x;
    LStripPadding(p, x);
  }

  /**
   A string written over two indented source lines joined by a line
   continuation, `p1 + a + " " + p2 + b` with `p1` and `p2` runs of spaces,
   normalises to `a + " " + b` whenever that is single-spaced.
   */
  lemma NormalizedContinuation(p1: string, a: string, p2: string, b: string)
    requires forall i :: 0 <= i < |p1| ==> p1[i] == ' '
    requires forall i :: 0 <= i < |p2| ==> p2[i] == ' '
    requires SingleSpaced(a + " " + b)
    ensures Normalized(p1 + a + " " + p2 + b) == a + " " + b
  {
    var j := a + " " + b;
    var x := a + " " + p2 + b;
    assert p1 + a + " " + p2 + b == p1 + x;
    assert x[0] == j[0] && x[|x| - 1] == j[|j| - 1];
    StripPadded(p1, x);
    SqueezeSpaces(a, p2, b);
    SqueezeKeeps(j);
  }

  /** The same over three source lines: `p1 + a + " " + p2 + b + " " + p3 + c`. */
  lemma NormalizedContinuation3(p1: string, a: string, p2: string, b: string, p3: string, c: string)
    requires forall i :: 0 <= i < |p1| ==> p1[i] == ' '
    requires forall i :: 0 <= i < |p2| ==> p2[i] == ' '
    requires forall i :: 0 <= i < |p3| ==> p3[i] == ' '
    requires SingleSpaced(a + " " + b + " " + c)
    ensures Normalized(p1 + a + " " + p2 + b + " " + p3 + c) == a + " " + b + " " + c
  {
    var j := a + " " + b + " " + c;
    var x := a + " " + p2 + b + " " + p3 + c;
    calc {
      Normalized(p1 + a + " " + p2 + b + " " + p3 + c);
      { assert p1 + a + " " + p2 + b + " " + p3 + c == p1 + x;
        assert x[0] == j[0] && x[|x| - 1] == j[|j| - 1];
        StripPadded(p1, x); }
      Squeeze(x);
      { SqueezeSpaces(a + " " + p2 + b, p3, c); }
      Squeeze(a + " " + p2 + b + " " + c);
      { assert a + " " + p2 + b + " " + c == a + " " + p2 + (b + " " + c);
        SqueezeSpaces(a, p2, b + " " + c); }
      Squeeze(a + " " + (b + " " + c));
      { assert a + " " + (b + " " + c) == j;
        SqueezeKeeps(j); }
      j;
    }
  }
}

=== FILE: proxy_cursor.dfy ===
/**
 The proxy cursor: bound to one session and one table, it caches the
 table's primary-key names when it is created, builds the range query from
 them, and on `destroy` clears and forgets its underlying database cursor.
 */
module ProxyCursors {

  import opened Wrappers
  import opened Text
  import opened SqlValue
  import opened RangeQuery

  /** What the session reports about a table: its primary keys and all its columns. */
  datatype TableMeta = TableMeta(primaryKeys: seq<string>, columns: seq<string>)

  /** The schema information a session can look up, by table name. */
  datatype Session = Session(tables: map<string, TableMeta>)

  /** The underlying database cursor: an opaque handle owned by the proxy cursor. */
  datatype DbCursor = DbCursor(handle: nat)

  datatype SchemaError = UnknownTable(name: string) | NoPrimaryKey(name: string)

  datatype ProxyCursor = ProxyCursor(
    session: Session,
    table: string,
    primaryKeyNames: seq<string>,
    cursor: Option<DbCursor>)

  /** The column list of a table starts with its primary keys, in key order. */
  predicate KeysFirst(meta: TableMeta) {
    |meta.primaryKeys| <= |meta.columns| && meta.columns[..|meta.primaryKeys|] == meta.primaryKeys
  }

  /**
   A usable proxy cursor: its table is known to its session, and the cached
   key names are the session's nonempty key list for that table.
   */
  predicate Valid(pc: ProxyCursor) {
    && pc.table in pc.session.tables
    && pc.primaryKeyNames == pc.session.tables[pc.table].primaryKeys
    && |pc.primaryKeyNames| > 0
  }

  /**
   `ProxyCursor.new(session, table)`: stores the session and the table and
   caches the table's primary-key names; a table the session does not know,
   or one without a primary key, is a schema error.
   */
  function New(session: Session, table: string): (r: Result<ProxyCursor, SchemaError>)
    ensures r.Success? <==> table in session.tables && |session.tables[table].primaryKeys| > 0
    ensures r.Success? ==> Valid(r.value) && r.value.cursor.None?
    ensures r.Success? ==> r.value.session == session && r.value.table == table
    ensures r.Failure? ==> r.error.name == table
  {
    if table !in session.tables then Failure(UnknownTable(table))
    else if |session.tables[table].primaryKeys| == 0 then Failure(NoPrimaryKey(table))
    else Success(ProxyCursor(session, table, session.tables[table].primaryKeys, None))
  }

  /** The session's column list for the cursor's table. */
  function Columns(pc: ProxyCursor): (cols: seq<string>)
    requires Valid(pc)
    ensures pc.session.tables[pc.table] == TableMeta(pc.primaryKeyNames, cols)
    ensures KeysFirst(pc.session.tables[pc.table]) ==>
              |pc.primaryKeyNames| <= |cols| && cols[..|pc.primaryKeyNames|] == pc.primaryKeyNames
  {
    pc.session.tables[pc.table].columns
  }

  /**
   `construct_query(from, to)` on a cursor: the range query over the cached
   key names and the session's column list for the table. It selects every
   column of the table, keys first when the session lists them first, and
   always ends ordered by the cached keys.
   */
  function Query(pc: ProxyCursor, from: Option<Bound>, to: Option<Bound>): (q: string)
    requires Valid(pc)
    requires CoversIfGiven(pc.primaryKeyNames, from) && CoversIfGiven(pc.primaryKeyNames, to)
    ensures StartsWith(q, SelectClause(Columns(pc), pc.table))
    ensures EndsWith(q, OrderClause(pc.primaryKeyNames))
    ensures (|q| == |SelectClause(Columns(pc), pc.table)| + |OrderClause(pc.primaryKeyNames)|)
        <==> from.None? && to.None?
    ensures KeysFirst(pc.session.tables[pc.table]) ==> StartsWith(q, "select " + Join(pc.primaryKeyNames, ", "))
  {
    if KeysFirst(pc.session.tables[pc.table]) then
      SelectsKeysFirst(pc.primaryKeyNames, Columns(pc), pc.table, from, to);
      ConstructQuery(pc.primaryKeyNames, Columns(pc), pc.table, from, to)
    else
      ConstructQuery(pc.primaryKeyNames, Columns(pc), pc.table, from, to)
  }

  /**
   `destroy`: clears the underlying cursor if there is one and forgets it.
   Returns the new state and the cursors that were cleared, in order.
   */
  function Destroy(pc: ProxyCursor): (r: (ProxyCursor, seq<DbCursor>))
    ensures r.0.cursor.None?
    ensures r.0.session == pc.session && r.0.table == pc.table && r.0.primaryKeyNames == pc.primaryKeyNames
    ensures |r.1| <= 1
    ensures forall c :: c in r.1 <==> pc.cursor == Some(c)
  {
    match pc.cursor
    case None => (pc, [])
    case Some(c) => (pc.(cursor := None), [c])
  }

  /** Destroying keeps a usable cursor usable: it can prepare another query. */
  lemma DestroyKeepsValid(pc: ProxyCursor)
    requires Valid(pc)
    ensures Valid(Destroy(pc).0)
  {
  }

  /**
   The underlying cursor is cleared exactly once: destroying a cursor that
   holds `c` clears `c`, and destroying it again clears nothing more.
   */
  lemma DestroyClearsOnce(pc: ProxyCursor, c: DbCursor)
    requires pc.cursor == Some(c)
    ensures Destroy(pc).1 + Destroy(Destroy(pc).0).1 == [c]
  {
  }

  /** A column list that starts with the keys gives a select list that starts with them. */
  lemma SelectClauseKeysFirst(pks: seq<string>, cols: seq<string>, table: string)
    requires |pks| > 0 && |pks| <= |cols| && cols[..|pks|] == pks
    ensures StartsWith(SelectClause(cols, table), "select " + Join(pks, ", "))
  {
    if |cols| == |pks| {
      assert cols == pks by { assert cols == cols[..|pks|]; }
      SplitAfter("select " + Join(pks, ", "), " from " + table);
    } else {
      var tail := cols[|pks|..];
      assert cols == pks + tail by { assert cols == cols[..|pks|] + cols[|pks|..]; }
      SelectClauseWithTail(pks, tail, table);
    }
  }

  lemma SelectClauseWithTail(pks: seq<string>, tail: seq<string>, table: string)
    requires |pks| > 0 && |tail| > 0
    ensures StartsWith(SelectClause(pks + tail, table), "select " + Join(pks, ", "))
  {
    var a, b := Join(pks, ", "), Join(tail, ", ");
    JoinAppend(pks, tail, ", ");
    Regroup("select ", a, ", ", b, " from ", table);
    SplitAfter("select " + a, ", " + b + " from " + table);
  }

  lemma Regroup(p: string, a: string, s: string, b: string, f: string, t: string)
    ensures p + (a + s + b) + f + t == (p + a) + (s + b + f + t)
  {
  }

  /**
   When the column list starts with the keys, the range query begins with
   `select` and the key names in key order.
   */
  lemma SelectsKeysFirst(pks: seq<string>, cols: seq<string>, table: string,
                         from: Option<Bound>, to: Option<Bound>)
    requires |pks| > 0 && |pks| <= |cols| && cols[..|pks|] == pks
    requires CoversIfGiven(pks, from) && CoversIfGiven(pks, to)
    ensures StartsWith(ConstructQuery(pks, cols, table, from, to), "select " + Join(pks, ", "))
  {
    var lead := "select " + Join(pks, ", ");
    var s := SelectClause(cols, table);
    var q := ConstructQuery(pks, cols, table, from, to);
    SelectClauseKeysFirst(pks, cols, table);
    StartsWithTrans(q, s, lead);
  }
}

=== FILE: proxy_cursor_spec.dfy ===
/**
 The construction, `construct_query` and `destroy` expectations of the proxy
 cursor's test suite, each stated as a lemma about the model. The suite writes
 each expected query over several lines and normalises it with `strip!` and
 `squeeze!(' ')`; the strings below are those normalised forms, and
 `QueryForm.ConstructQueryNormalized` shows that a query built from these
 single-spaced names and values is already in that form.
 */
module ProxyCursorSpec {

  import opened Wrappers
  import opened Decimal
  import opened Text
  import opened SqlValue
  import opened ValueList
  import opened RangeQuery
  import opened Normalize
  import opened QueryForm
  import opened ProxyCursors

  /** `create_mock_session table, keys, columns`: a session that knows one table. */
  function MockSession(table: string, keys: seq<string>, columns: seq<string>): (s: Session)
    ensures table in s.tables && s.tables[table].primaryKeys == keys && s.tables[table].columns == columns
  {
    Session(map[table := TableMeta(keys, columns)])
  }

  /** `ProxyCursor.new(session, table)` on a session that knows just that table. */
  function CursorOn(table: string, keys: seq<string>, columns: seq<string>): (pc: ProxyCursor)
    requires |keys| > 0
    ensures pc == ProxyCursor(MockSession(table, keys, columns), table, keys, None)
  {
    New(MockSession(table, keys, columns), table).value
  }

  /** The single-key table most expectations use. */
  function DummyCursor(): (pc: ProxyCursor)
    ensures Valid(pc) && pc.primaryKeyNames == ["dummy_key"] && Columns(pc) == ["dummy_key", "dummy_column"]
  {
    CursorOn("dummy_table", ["dummy_key"], ["dummy_key", "dummy_column"])
  }

  /** The table with a two-column primary key. */
  function CompositeCursor(): (pc: ProxyCursor)
    ensures Valid(pc) && pc.primaryKeyNames == ["dummy_key1", "dummy_key2"] && Columns(pc) == ["dummy_key1", "dummy_key2", "dummy_column"]
  {
    CursorOn("dummy_table", ["dummy_key1", "dummy_key2"], ["dummy_key1", "dummy_key2", "dummy_column"])
  }

  /** The database table keyed by a text column. */
  function TextKeyCursor(): (pc: ProxyCursor)
    ensures Valid(pc) && pc.primaryKeyNames == ["text_id"] && Columns(pc) == ["text_id", "name"]
  {
    CursorOn("scanner_text_key", ["text_id"], ["text_id", "name"])
  }

  /** Construction stores the session and the table and caches the key names, whatever the table's columns. */
  lemma InitializeCachesPrimaryKeys(columns: seq<string>)
    ensures var session := MockSession("dummy_table", ["dummy_key"], columns);
      New(session, "dummy_table") == Success(ProxyCursor(session, "dummy_table", ["dummy_key"], None))
  {
  }

  /** No bounds: no `where` clause. */
  lemma QueryWithoutConditions()
    ensures Query(DummyCursor(), None, None)
         == "select dummy_key, dummy_column from dummy_table"
            + " order by dummy_key"
  {
    DummySelectText();
    DummyOrderText();
  }

  /** Only a lower bound: one `>=` comparison. */
  lemma QueryWithFromCondition()
    ensures Query(DummyCursor(), Some(map["dummy_key" := IntVal(1)]), None)
         == "select dummy_key, dummy_column from dummy_table"
            + " where (dummy_key) >= (1)"
            + " order by dummy_key"
  {
    DummySelectText();
    DummyOrderText();
    QueryWithFromConditionLower();
    LowerBoundOnlyQuery(["dummy_key"], ["dummy_key", "dummy_column"], "dummy_table", map["dummy_key" := IntVal(1)]);
    RegroupOne(SelectClause(["dummy_key", "dummy_column"], "dummy_table"), Comparison(["dummy_key"], ">=", map["dummy_key" := IntVal(1)]), OrderClause(["dummy_key"]));
  }

  /** Only an upper bound: a standalone `where` with one `<=` comparison. */
  lemma QueryWithToCondition()
    ensures Query(DummyCursor(), None, Some(map["dummy_key" := IntVal(1)]))
         == "select dummy_key, dummy_column from dummy_table"
            + " where (dummy_key) <= (1)"
            + " order by dummy_key"
  {
    DummySelectText();
    DummyOrderText();
    QueryWithToConditionUpper();
    UpperBoundOnlyQuery(["dummy_key"], ["dummy_key", "dummy_column"], "dummy_table", map["dummy_key" := IntVal(1)]);
    RegroupOne(SelectClause(["dummy_key", "dummy_column"], "dummy_table"), Comparison(["dummy_key"], "<=", map["dummy_key" := IntVal(1)]), OrderClause(["dummy_key"]));
  }

  /** Both bounds: `>=` first, then ` and ` and `<=`. */
  lemma QueryWithBothConditions()
    ensures Query(DummyCursor(), Some(map["dummy_key" := IntVal(0)]), Some(map["dummy_key" := IntVal(1)]))
         == "select dummy_key, dummy_column from dummy_table"
            + " where (dummy_key) >= (0)"
            + " and (dummy_key) <= (1)"
            + " order by dummy_key"
  {
    DummySelectText();
    DummyOrderText();
    QueryWithBothConditionsLower();
    QueryWithBothConditionsUpper();
    BothBoundsQuery(["dummy_key"], ["dummy_key", "dummy_column"], "dummy_table", map["dummy_key" := IntVal(0)], map["dummy_key" := IntVal(1)]);
    RegroupBoth(SelectClause(["dummy_key", "dummy_column"], "dummy_table"), Comparison(["dummy_key"], ">=", map["dummy_key" := IntVal(0)]), Comparison(["dummy_key"], "<=", map["dummy_key" := IntVal(1)]), OrderClause(["dummy_key"]));
  }

  /** A two-column key: both tuples and `order by` list the keys in key order. */
  lemma QueryWithCombinedPrimaryKey()
    ensures Query(CompositeCursor(), Some(map["dummy_key1" := IntVal(0), "dummy_key2" := IntVal(1)]), Some(map["dummy_key1" := IntVal(2), "dummy_key2" := IntVal(3)]))
         == "select dummy_key1, dummy_key2, dummy_column from dummy_table"
            + (" where " + "(dummy_key1, dummy_key2) >= (0, 1)")
            + (" and " + "(dummy_key1, dummy_key2) <= (2, 3)")
            + " order by dummy_key1, dummy_key2"
  {
    CompositeSelectText();
    CompositeOrderText();
    QueryWithCombinedPrimaryKeyLowerText();
    QueryWithCombinedPrimaryKeyUpperText();
    BothBoundsQuery(["dummy_key1", "dummy_key2"], ["dummy_key1", "dummy_key2", "dummy_column"], "dummy_table", map["dummy_key1" := IntVal(0), "dummy_key2" := IntVal(1)], map["dummy_key1" := IntVal(2), "dummy_key2" := IntVal(3)]);
    RegroupBoth(SelectClause(["dummy_key1", "dummy_key2", "dummy_column"], "dummy_table"), Comparison(["dummy_key1", "dummy_key2"], ">=", map["dummy_key1" := IntVal(0), "dummy_key2" := IntVal(1)]), Comparison(["dummy_key1", "dummy_key2"], "<=", map["dummy_key1" := IntVal(2), "dummy_key2" := IntVal(3)]), OrderClause(["dummy_key1", "dummy_key2"]));
  }

  /** String bounds are quoted in the `E'...'` form. */
  lemma QueryQuotesColumnValues()
    ensures Query(TextKeyCursor(), Some(map["text_id" := StrVal("a")]), Some(map["text_id" := StrVal("b")]))
         == "select text_id, name from scanner_text_key"
            + " where (text_id) >= (E'a')"
            + " and (text_id) <= (E'b')"
            + " order by text_id"
  {
    TextKeySelectText();
    TextKeyOrderText();
    QueryQuotesColumnValuesLower();
    QueryQuotesColumnValuesUpper();
    BothBoundsQuery(["text_id"], ["text_id", "name"], "scanner_text_key", map["text_id" := StrVal("a")], map["text_id" := StrVal("b")]);
    RegroupBoth(SelectClause(["text_id", "name"], "scanner_text_key"), Comparison(["text_id"], ">=", map["text_id" := StrVal("a")]), Comparison(["text_id"], "<=", map["text_id" := StrVal("b")]), OrderClause(["text_id"]));
  }

  // The expected text, assembled clause by clause.

  lemma RegroupOne(s: string, c: string, o: string)
    ensures s + " where " + c + o == s + (" where " + c) + o
  {
  }

  lemma RegroupBoth(s: string, c1: string, c2: string, o: string)
    ensures s + " where " + c1 + " and " + c2 + o == s + (" where " + c1) + (" and " + c2) + o
  {
  }

  lemma JoinDummyKeyDummyColumn()
    ensures Join(["dummy_key", "dummy_column"], ", ") == "dummy_key, dummy_column"
  {
    assert Join(["dummy_column"], ", ") == "dummy_column";
    assert ["dummy_key", "dummy_column"][1..] == ["dummy_column"];
    assert "dummy_key" + ", " + "dummy_column" == "dummy_key, dummy_column";
    assert Join(["dummy_key", "dummy_column"], ", ") == "dummy_key, dummy_column";
  }

  lemma DummySelectText()
    ensures SelectClause(["dummy_key", "dummy_column"], "dummy_table") == "select dummy_key, dummy_column from dummy_table"
  {
    JoinDummyKeyDummyColumn();
    assert "select " + "dummy_key, dummy_column" == "select dummy_key, dummy_column";
    assert "select dummy_key, dummy_column" + " from " == "select dummy_key, dummy_column from ";
    assert "select dummy_key, dummy_column from " + "dummy_table" == "select dummy_key, dummy_column from dummy_table";
  }

  lemma DummyOrderText()
    ensures OrderClause(["dummy_key"]) == " order by dummy_key"
  {
    assert Join(["dummy_key"], ", ") == "dummy_key";
    assert " order by " + "dummy_key" == " order by dummy_key";
  }

  lemma QueryWithFromConditionLowerText()
    ensures Comparison(["dummy_key"], ">=", map["dummy_key" := IntVal(1)]) == "(dummy_key) >= (1)"
  {
    SingleKeyComparison("dummy_key", ">=", IntVal(1));
    assert Quote(IntVal(1)) == "1" by { assert ShowInt(1) == "1"; }
  }

  lemma QueryWithFromConditionLower()
    ensures " where " + Comparison(["dummy_key"], ">=", map["dummy_key" := IntVal(1)]) == " where (dummy_key) >= (1)"
  {
    QueryWithFromConditionLowerText();
    assert " where " + "(dummy_key) >= (1)" == " where (dummy_key) >= (1)";
  }

  lemma QueryWithToConditionUpperText()
    ensures Comparison(["dummy_key"], "<=", map["dummy_key" := IntVal(1)]) == "(dummy_key) <= (1)"
  {
    SingleKeyComparison("dummy_key", "<=", IntVal(1));
    assert Quote(IntVal(1)) == "1" by { assert ShowInt(1) == "1"; }
  }

  lemma QueryWithToConditionUpper()
    ensures " where " + Comparison(["dummy_key"], "<=", map["dummy_key" := IntVal(1)]) == " where (dummy_key) <= (1)"
  {
    QueryWithToConditionUpperText();
    assert " where " + "(dummy_key) <= (1)" == " where (dummy_key) <= (1)";
  }

  lemma QueryWithBothConditionsLowerText()
    ensures Comparison(["dummy_key"], ">=", map["dummy_key" := IntVal(0)]) == "(dummy_key) >= (0)"
  {
    SingleKeyComparison("dummy_key", ">=", IntVal(0));
    assert Quote(IntVal(0)) == "0" by { assert ShowInt(0) == "0"; }
  }

  lemma QueryWithBothConditionsLower()
    ensures " where " + Comparison(["dummy_key"], ">=", map["dummy_key" := IntVal(0)]) == " where (dummy_key) >= (0)"
  {
    QueryWithBothConditionsLowerText();
    assert " where " + "(dummy_key) >= (0)" == " where (dummy_key) >= (0)";
  }

  lemma QueryWithBothConditionsUpperText()
    ensures Comparison(["dummy_key"], "<=", map["dummy_key" := IntVal(1)]) == "(dummy_key) <= (1)"
  {
    SingleKeyComparison("dummy_key", "<=", IntVal(1));
    assert Quote(IntVal(1)) == "1" by { assert ShowInt(1) == "1"; }
  }

  lemma QueryWithBothConditionsUpper()
    ensures " and " + Comparison(["dummy_key"], "<=", map["dummy_key" := IntVal(1)]) == " and (dummy_key) <= (1)"
  {
    QueryWithBothConditionsUpperText();
    assert " and " + "(dummy_key) <= (1)" == " and (dummy_key) <= (1)";
  }

  /** The select list of a table whose columns are a list `a` followed by one more column `b`. */
  lemma SelectParts(a: string, b: string, t: string)
    ensures "select " + (a + ", " + b) + " from " + t == "select " + a + ", " + b + " from " + t
  {
  }

  lemma CompositeSelectText()
    ensures SelectClause(["dummy_key1", "dummy_key2", "dummy_column"], "dummy_table") == "select dummy_key1, dummy_key2, dummy_column from dummy_table"
  {
    JoinDummyKey1DummyKey2();
    JoinAppend(["dummy_key1", "dummy_key2"], ["dummy_column"], ", ");
    assert ["dummy_key1", "dummy_key2"] + ["dummy_column"] == ["dummy_key1", "dummy_key2", "dummy_column"];
    assert Join(["dummy_column"], ", ") == "dummy_column";
    SelectParts("dummy_key1, dummy_key2", "dummy_column", "dummy_table");
    CompositeSelectWords();
  }

  lemma CompositeSelectWords()
    ensures "select " + "dummy_key1, dummy_key2" + ", " + "dummy_column" + " from " + "dummy_table"
         == "select dummy_key1, dummy_key2, dummy_column from dummy_table"
  {
    CompositeSelectKeys();
    CompositeSelectList();
  }

  lemma CompositeSelectKeys()
    ensures "select " + "dummy_key1, dummy_key2" == "select dummy_key1, dummy_key2"
  {
  }

  lemma CompositeSelectList()
    ensures "select dummy_key1, dummy_key2" + ", " + "dummy_column" == "select dummy_key1, dummy_key2, dummy_column"
  {
  }

  lemma JoinDummyKey1DummyKey2()
    ensures Join(["dummy_key1", "dummy_key2"], ", ") == "dummy_key1, dummy_key2"
  {
    assert Join(["dummy_key2"], ", ") == "dummy_key2";
    assert ["dummy_key1", "dummy_key2"][1..] == ["dummy_key2"];
    assert "dummy_key1" + ", " + "dummy_key2" == "dummy_key1, dummy_key2";
    assert Join(["dummy_key1", "dummy_key2"], ", ") == "dummy_key1, dummy_key2";
  }

  lemma CompositeOrderText()
    ensures OrderClause(["dummy_key1", "dummy_key2"]) == " order by dummy_key1, dummy_key2"
  {
    JoinDummyKey1DummyKey2();
    assert " order by " + "dummy_key1, dummy_key2" == " order by dummy_key1, dummy_key2";
  }

  lemma Join01()
    ensures Join(["0", "1"], ", ") == "0, 1"
  {
    assert Join(["1"], ", ") == "1";
    assert ["0", "1"][1..] == ["1"];
    assert "0" + ", " + "1" == "0, 1";
    assert Join(["0", "1"], ", ") == "0, 1";
  }

  lemma CompositeKeyTuple()
    ensures KeyTuple(["dummy_key1", "dummy_key2"]) == "(dummy_key1, dummy_key2)"
  {
    JoinDummyKey1DummyKey2();
    assert "(" + "dummy_key1, dummy_key2" == "(dummy_key1, dummy_key2";
    assert "(dummy_key1, dummy_key2" + ")" == "(dummy_key1, dummy_key2)";
  }

  lemma QueryWithCombinedPrimaryKeyLowerText()
    ensures Comparison(["dummy_key1", "dummy_key2"], ">=", map["dummy_key1" := IntVal(0), "dummy_key2" := IntVal(1)]) == "(dummy_key1, dummy_key2) >= (0, 1)"
  {
    CompositeKeyTuple();
    QueryWithCombinedPrimaryKeyLowerValues();
    assert "(" + "0, 1" + ")" == "(0, 1)";
    var c := "(dummy_key1, dummy_key2)" + " " + ">=" + " ";
    assert c == "(dummy_key1, dummy_key2) >= ";
    assert c + "(0, 1)" == "(dummy_key1, dummy_key2) >= (0, 1)";
  }

  lemma QueryWithCombinedPrimaryKeyLowerValues()
    ensures Join(Literals(BoundValues(["dummy_key1", "dummy_key2"], map["dummy_key1" := IntVal(0), "dummy_key2" := IntVal(1)])), ", ") == "0, 1"
  {
    assert BoundValues(["dummy_key1", "dummy_key2"], map["dummy_key1" := IntVal(0), "dummy_key2" := IntVal(1)]) == [IntVal(0), IntVal(1)];
    assert Quote(IntVal(0)) == "0" by { assert ShowInt(0) == "0"; }
    assert Quote(IntVal(1)) == "1" by { assert ShowInt(1) == "1"; }
    assert Literals([IntVal(0), IntVal(1)]) == ["0", "1"];
    Join01();
  }

  lemma Join23()
    ensures Join(["2", "3"], ", ") == "2, 3"
  {
    assert Join(["3"], ", ") == "3";
    assert ["2", "3"][1..] == ["3"];
    assert "2" + ", " + "3" == "2, 3";
    assert Join(["2", "3"], ", ") == "2, 3";
  }

  lemma QueryWithCombinedPrimaryKeyUpperText()
    ensures Comparison(["dummy_key1", "dummy_key2"], "<=", map["dummy_key1" := IntVal(2), "dummy_key2" := IntVal(3)]) == "(dummy_key1, dummy_key2) <= (2, 3)"
  {
    CompositeKeyTuple();
    QueryWithCombinedPrimaryKeyUpperValues();
    assert "(" + "2, 3" + ")" == "(2, 3)";
    var c := "(dummy_key1, dummy_key2)" + " " + "<=" + " ";
    assert c == "(dummy_key1, dummy_key2) <= ";
    assert c + "(2, 3)" == "(dummy_key1, dummy_key2) <= (2, 3)";
  }

  lemma QueryWithCombinedPrimaryKeyUpperValues()
    ensures Join(Literals(BoundValues(["dummy_key1", "dummy_key2"], map["dummy_key1" := IntVal(2), "dummy_key2" := IntVal(3)])), ", ") == "2, 3"
  {
    assert BoundValues(["dummy_key1", "dummy_key2"], map["dummy_key1" := IntVal(2), "dummy_key2" := IntVal(3)]) == [IntVal(2), IntVal(3)];
    assert Quote(IntVal(2)) == "2" by { assert ShowInt(2) == "2"; }
    assert Quote(IntVal(3)) == "3" by { assert ShowInt(3) == "3"; }
    assert Literals([IntVal(2), IntVal(3)]) == ["2", "3"];
    Join23();
  }

  lemma JoinTextIdName()
    ensures Join(["text_id", "name"], ", ") == "text_id, name"
  {
    assert Join(["name"], ", ") == "name";
    assert ["text_id", "name"][1..] == ["name"];
    assert "text_id" + ", " + "name" == "text_id, name";
    assert Join(["text_id", "name"], ", ") == "text_id, name";
  }

  lemma TextKeySelectText()
    ensures SelectClause(["text_id", "name"], "scanner_text_key") == "select text_id, name from scanner_text_key"
  {
    JoinTextIdName();
    assert "select " + "text_id, name" == "select text_id, name";
    assert "select text_id, name" + " from " == "select text_id, name from ";
    assert "select text_id, name from " + "scanner_text_key" == "select text_id, name from scanner_text_key";
  }

  lemma TextKeyOrderText()
    ensures OrderClause(["text_id"]) == " order by text_id"
  {
    assert Join(["text_id"], ", ") == "text_id";
    assert " order by " + "text_id" == " order by text_id";
  }

  lemma QueryQuotesColumnValuesLowerText()
    ensures Comparison(["text_id"], ">=", map["text_id" := StrVal("a")]) == "(text_id) >= (E'a')"
  {
    SingleKeyComparison("text_id", ">=", StrVal("a"));
    assert Quote(StrVal("a")) == "E'a'" by { assert "E'" + "a" == "E'a"; }
  }

  lemma QueryQuotesColumnValuesLower()
    ensures " where " + Comparison(["text_id"], ">=", map["text_id" := StrVal("a")]) == " where (text_id) >= (E'a')"
  {
    QueryQuotesColumnValuesLowerText();
    assert " where " + "(text_id) >= (E'a')" == " where (text_id) >= (E'a')";
  }

  lemma QueryQuotesColumnValuesUpperText()
    ensures Comparison(["text_id"], "<=", map["text_id" := StrVal("b")]) == "(text_id) <= (E'b')"
  {
  }

  lemma QueryQuotesColumnValuesUpper()
    ensures " and " + Comparison(["text_id"], "<=", map["text_id" := StrVal("b")]) == " and (text_id) <= (E'b')"
  {
    QueryQuotesColumnValuesUpperText();
    assert " and " + "(text_id) <= (E'b')" == " and (text_id) <= (E'b')";
  }

  /** The generated query spelled out the way the suite's lines cut it. */
  lemma FromConditionLines()
    ensures Query(DummyCursor(), Some(map["dummy_key" := IntVal(1)]), None)
         == "select dummy_key, dummy_column from dummy_table" + " " + ("where " + "(dummy_key) >= (1)" + " order by dummy_key")
  {
    QueryWithFromCondition();
    QueryWithFromConditionLowerText();
    QueryWithFromConditionLower();
    AfterSelect1("select dummy_key, dummy_column from dummy_table", "where " + "(dummy_key) >= (1)" + " order by dummy_key", "(dummy_key) >= (1)", " where " + "(dummy_key) >= (1)", " order by dummy_key");
  }

  /**
   The lower-bound expectation as the suite writes it, one indented source line per piece,
   joined by line continuations (each line written out clause by clause):
   `strip!` and `squeeze!(' ')` turn it into the generated query.
   */
  lemma FromConditionAsWritten()
    ensures Normalized("         " + ("select dummy_key, dummy_column from dummy_table" + " ")
                     + "         " + ("where " + "(dummy_key) >= (1)" + " order by dummy_key"))
         == Query(DummyCursor(), Some(map["dummy_key" := IntVal(1)]), None)
  {
    NineSpaces();
    FromConditionLines();
    OneKeyBound("dummy_key", IntVal(1));
    var q := Query(DummyCursor(), Some(map["dummy_key" := IntVal(1)]), None);
    DummyCursorQueryNormal(Some(map["dummy_key" := IntVal(1)]), None);
    TwoLines("         ", "select dummy_key, dummy_column from dummy_table" + " ", "         ", "where " + "(dummy_key) >= (1)" + " order by dummy_key", "select dummy_key, dummy_column from dummy_table", q);
  }

  /** The generated query spelled out the way the suite's lines cut it. */
  lemma ToConditionLines()
    ensures Query(DummyCursor(), None, Some(map["dummy_key" := IntVal(1)]))
         == "select dummy_key, dummy_column from dummy_table" + " " + ("where " + "(dummy_key) <= (1)" + " order by dummy_key")
  {
    QueryWithToCondition();
    QueryWithToConditionUpperText();
    QueryWithToConditionUpper();
    AfterSelect1("select dummy_key, dummy_column from dummy_table", "where " + "(dummy_key) <= (1)" + " order by dummy_key", "(dummy_key) <= (1)", " where " + "(dummy_key) <= (1)", " order by dummy_key");
  }

  /**
   The upper-bound expectation as the suite writes it, one indented source line per piece,
   joined by line continuations (each line written out clause by clause):
   `strip!` and `squeeze!(' ')` turn it into the generated query.
   */
  lemma ToConditionAsWritten()
    ensures Normalized("         " + ("select dummy_key, dummy_column from dummy_table" + " ")
                     + "         " + ("where " + "(dummy_key) <= (1)" + " order by dummy_key"))
         == Query(DummyCursor(), None, Some(map["dummy_key" := IntVal(1)]))
  {
    NineSpaces();
    ToConditionLines();
    OneKeyBound("dummy_key", IntVal(1));
    var q := Query(DummyCursor(), None, Some(map["dummy_key" := IntVal(1)]));
    DummyCursorQueryNormal(None, Some(map["dummy_key" := IntVal(1)]));
    TwoLines("         ", "select dummy_key, dummy_column from dummy_table" + " ", "         ", "where " + "(dummy_key) <= (1)" + " order by dummy_key", "select dummy_key, dummy_column from dummy_table", q);
  }

  /** The generated query spelled out the way the suite's lines cut it. */
  lemma BothConditionsLines()
    ensures Query(DummyCursor(), Some(map["dummy_key" := IntVal(0)]), Some(map["dummy_key" := IntVal(1)]))
         == "select dummy_key, dummy_column from dummy_table" + " " + ("where " + "(dummy_key) >= (0)" + " and " + "(dummy_key) <= (1)" + " order by dummy_key")
  {
    QueryWithBothConditions();
    QueryWithBothConditionsLowerText();
    QueryWithBothConditionsLower();
    QueryWithBothConditionsUpperText();
    QueryWithBothConditionsUpper();
    AfterSelect2("select dummy_key, dummy_column from dummy_table", "where " + "(dummy_key) >= (0)" + " and " + "(dummy_key) <= (1)" + " order by dummy_key", "(dummy_key) >= (0)", "(dummy_key) <= (1)", " where " + "(dummy_key) >= (0)", " and " + "(dummy_key) <= (1)", " order by dummy_key");
  }

  /**
   The two-bound expectation as the suite writes it, one indented source line per piece,
   joined by line continuations (each line written out clause by clause):
   `strip!` and `squeeze!(' ')` turn it into the generated query.
   */
  lemma BothConditionsAsWritten()
    ensures Normalized("        " + ("select dummy_key, dummy_column from dummy_table" + " ")
                     + "        " + ("where " + "(dummy_key) >= (0)" + " and " + "(dummy_key) <= (1)" + " order by dummy_key"))
         == Query(DummyCursor(), Some(map["dummy_key" := IntVal(0)]), Some(map["dummy_key" := IntVal(1)]))
  {
    EightSpaces();
    BothConditionsLines();
    OneKeyBound("dummy_key", IntVal(0));
    OneKeyBound("dummy_key", IntVal(1));
    var q := Query(DummyCursor(), Some(map["dummy_key" := IntVal(0)]), Some(map["dummy_key" := IntVal(1)]));
    DummyCursorQueryNormal(Some(map["dummy_key" := IntVal(0)]), Some(map["dummy_key" := IntVal(1)]));
    TwoLines("        ", "select dummy_key, dummy_column from dummy_table" + " ", "        ", "where " + "(dummy_key) >= (0)" + " and " + "(dummy_key) <= (1)" + " order by dummy_key", "select dummy_key, dummy_column from dummy_table", q);
  }

  /** The generated query spelled out the way the suite's lines cut it. */
  lemma CombinedPrimaryKeyLines()
    ensures Query(CompositeCursor(), Some(map["dummy_key1" := IntVal(0), "dummy_key2" := IntVal(1)]), Some(map["dummy_key1" := IntVal(2), "dummy_key2" := IntVal(3)]))
         == "select dummy_key1, dummy_key2, dummy_column from dummy_table" + " " + ("where " + "(dummy_key1, dummy_key2) >= (0, 1)" + " and " + "(dummy_key1, dummy_key2) <= (2, 3)") + " " + ("order by " + "dummy_key1, dummy_key2")
  {
    QueryWithCombinedPrimaryKey();
    QueryWithCombinedPrimaryKeyLowerText();
    QueryWithCombinedPrimaryKeyUpperText();
    CompositeOrderText();
    JoinDummyKey1DummyKey2();
    AfterSelectLines("select dummy_key1, dummy_key2, dummy_column from dummy_table", "where " + "(dummy_key1, dummy_key2) >= (0, 1)" + " and " + "(dummy_key1, dummy_key2) <= (2, 3)", "order by " + "dummy_key1, dummy_key2", "(dummy_key1, dummy_key2) >= (0, 1)", "(dummy_key1, dummy_key2) <= (2, 3)", "dummy_key1, dummy_key2", " where " + "(dummy_key1, dummy_key2) >= (0, 1)", " and " + "(dummy_key1, dummy_key2) <= (2, 3)", " order by dummy_key1, dummy_key2");
  }

  /**
   The two-column-key expectation as the suite writes it, one indented source line per piece,
   joined by line continuations (each line written out clause by clause):
   `strip!` and `squeeze!(' ')` turn it into the generated query.
   */
  lemma CombinedPrimaryKeyAsWritten()
    ensures Normalized("        " + ("select dummy_key1, dummy_key2, dummy_column from dummy_table" + " ")
                     + "        " + ("where " + "(dummy_key1, dummy_key2) >= (0, 1)" + " and " + "(dummy_key1, dummy_key2) <= (2, 3)" + " ")
                     + "        " + ("order by " + "dummy_key1, dummy_key2"))
         == Query(CompositeCursor(), Some(map["dummy_key1" := IntVal(0), "dummy_key2" := IntVal(1)]), Some(map["dummy_key1" := IntVal(2), "dummy_key2" := IntVal(3)]))
  {
    EightSpaces();
    CombinedPrimaryKeyLines();
    CompositeIntBound(0, 1);
    CompositeIntBound(2, 3);
    var q := Query(CompositeCursor(), Some(map["dummy_key1" := IntVal(0), "dummy_key2" := IntVal(1)]), Some(map["dummy_key1" := IntVal(2), "dummy_key2" := IntVal(3)]));
    CompositeCursorQueryNormal(Some(map["dummy_key1" := IntVal(0), "dummy_key2" := IntVal(1)]), Some(map["dummy_key1" := IntVal(2), "dummy_key2" := IntVal(3)]));
    ThreeLines("        ", "select dummy_key1, dummy_key2, dummy_column from dummy_table" + " ", "        ", "where " + "(dummy_key1, dummy_key2) >= (0, 1)" + " and " + "(dummy_key1, dummy_key2) <= (2, 3)" + " ", "        ", "order by " + "dummy_key1, dummy_key2", "select dummy_key1, dummy_key2, dummy_column from dummy_table", "where " + "(dummy_key1, dummy_key2) >= (0, 1)" + " and " + "(dummy_key1, dummy_key2) <= (2, 3)", q);
  }

  /** The generated query spelled out the way the suite's lines cut it. */
  lemma QuotedValuesLines()
    ensures Query(TextKeyCursor(), Some(map["text_id" := StrVal("a")]), Some(map["text_id" := StrVal("b")]))
         == "select text_id, name from scanner_text_key" + " " + ("where " + "(text_id) >= (E'a')" + " and " + "(text_id) <= (E'b')") + " " + ("order by " + "text_id")
  {
    QueryQuotesColumnValues();
    QueryQuotesColumnValuesLowerText();
    QueryQuotesColumnValuesLower();
    QueryQuotesColumnValuesUpperText();
    QueryQuotesColumnValuesUpper();
    TextKeyOrderText();
    assert Join(["text_id"], ", ") == "text_id";
    AfterSelectLines("select text_id, name from scanner_text_key", "where " + "(text_id) >= (E'a')" + " and " + "(text_id) <= (E'b')", "order by " + "text_id", "(text_id) >= (E'a')", "(text_id) <= (E'b')", "text_id", " where " + "(text_id) >= (E'a')", " and " + "(text_id) <= (E'b')", " order by text_id");
  }

  /**
   The quoting expectation as the suite writes it, one indented source line per piece,
   joined by line continuations (each line written out clause by clause):
   `strip!` and `squeeze!(' ')` turn it into the generated query.
   */
  lemma QuotedValuesAsWritten()
    ensures Normalized("        " + ("select text_id, name from scanner_text_key" + " ")
                     + "        " + ("where " + "(text_id) >= (E'a')" + " and " + "(text_id) <= (E'b')" + " ")
                     + "        " + ("order by " + "text_id"))
         == Query(TextKeyCursor(), Some(map["text_id" := StrVal("a")]), Some(map["text_id" := StrVal("b")]))
  {
    EightSpaces();
    QuotedValuesLines();
    OneKeyBound("text_id", StrVal("a"));
    OneKeyBound("text_id", StrVal("b"));
    var q := Query(TextKeyCursor(), Some(map["text_id" := StrVal("a")]), Some(map["text_id" := StrVal("b")]));
    TextKeyCursorQueryNormal(Some(map["text_id" := StrVal("a")]), Some(map["text_id" := StrVal("b")]));
    ThreeLines("        ", "select text_id, name from scanner_text_key" + " ", "        ", "where " + "(text_id) >= (E'a')" + " and " + "(text_id) <= (E'b')" + " ", "        ", "order by " + "text_id", "select text_id, name from scanner_text_key", "where " + "(text_id) >= (E'a')" + " and " + "(text_id) <= (E'b')", q);
  }

  /** The suite's continuation lines are indented by eight or nine spaces. */
  lemma EightSpaces()
    ensures forall i :: 0 <= i < |"        "| ==> "        "[i] == ' '
  {
  }

  lemma NineSpaces()
    ensures forall i :: 0 <= i < |"         "| ==> "         "[i] == ' '
  {
  }

  /** Every query of the test tables is single-spaced and trimmed. */
  lemma DummyCursorQueryNormal(from: Option<Bound>, to: Option<Bound>)
    requires CoversIfGiven(["dummy_key"], from) && CoversIfGiven(["dummy_key"], to)
    requires SpacedIfGiven(["dummy_key"], from) && SpacedIfGiven(["dummy_key"], to)
    ensures SingleSpaced(Query(DummyCursor(), from, to))
  {
    ConstructQueryNormalized(["dummy_key"], ["dummy_key", "dummy_column"], "dummy_table", from, to);
  }

  lemma CompositeCursorQueryNormal(from: Option<Bound>, to: Option<Bound>)
    requires CoversIfGiven(["dummy_key1", "dummy_key2"], from) && CoversIfGiven(["dummy_key1", "dummy_key2"], to)
    requires SpacedIfGiven(["dummy_key1", "dummy_key2"], from) && SpacedIfGiven(["dummy_key1", "dummy_key2"], to)
    ensures SingleSpaced(Query(CompositeCursor(), from, to))
  {
    ConstructQueryNormalized(["dummy_key1", "dummy_key2"], ["dummy_key1", "dummy_key2", "dummy_column"], "dummy_table", from, to);
  }

  /** A bound on a one-column key that gives the column a value with no run of spaces. */
  lemma OneKeyBound(key: string, v: Value)
    requires !v.StrVal? || NoDoubleSpace(v.s)
    ensures CoversIfGiven([key], Some(map[key := v])) && SpacedIfGiven([key], Some(map[key := v]))
  {
  }

  /** A bound giving both key columns of the composite table integer values. */
  lemma CompositeIntBound(x: int, y: int)
    ensures var b := Some(map["dummy_key1" := IntVal(x), "dummy_key2" := IntVal(y)]);
      CoversIfGiven(["dummy_key1", "dummy_key2"], b) && SpacedIfGiven(["dummy_key1", "dummy_key2"], b)
  {
    var pks := ["dummy_key1", "dummy_key2"];
    var m := map["dummy_key1" := IntVal(x), "dummy_key2" := IntVal(y)];
    forall k | k in pks ensures k in m && !m[k].StrVal? {
      assert k == pks[0] || k == pks[1];
    }
  }

  lemma TextKeyCursorQueryNormal(from: Option<Bound>, to: Option<Bound>)
    requires CoversIfGiven(["text_id"], from) && CoversIfGiven(["text_id"], to)
    requires SpacedIfGiven(["text_id"], from) && SpacedIfGiven(["text_id"], to)
    ensures SingleSpaced(Query(TextKeyCursor(), from, to))
  {
    ConstructQueryNormalized(["text_id"], ["text_id", "name"], "scanner_text_key", from, to);
  }

  /**
   Two source lines `p1 + l1` and `p2 + b`, the first ending in one space,
   normalise to the single-spaced `q` they spell out.
   */
  lemma TwoLines(p1: string, l1: string, p2: string, b: string, a: string, q: string)
    requires forall i :: 0 <= i < |p1| ==> p1[i] == ' '
    requires forall i :: 0 <= i < |p2| ==> p2[i] == ' '
    requires l1 == a + " " && q == a + " " + b && SingleSpaced(q)
    ensures Normalized(p1 + l1 + p2 + b) == q
  {
    assert p1 + l1 + p2 + b == p1 + a + " " + p2 + b;
    NormalizedContinuation(p1, a, p2, b);
  }

  /** The same for three source lines. */
  lemma ThreeLines(p1: string, l1: string, p2: string, l2: string, p3: string, c: string,
                   a: string, b: string, q: string)
    requires forall i :: 0 <= i < |p1| ==> p1[i] == ' '
    requires forall i :: 0 <= i < |p2| ==> p2[i] == ' '
    requires forall i :: 0 <= i < |p3| ==> p3[i] == ' '
    requires l1 == a + " " && l2 == b + " " && q == a + " " + b + " " + c && SingleSpaced(q)
    ensures Normalized(p1 + l1 + p2 + l2 + p3 + c) == q
  {
    assert p1 + l1 + p2 + l2 + p3 + c == p1 + a + " " + p2 + b + " " + p3 + c;
    NormalizedContinuation3(p1, a, p2, b, p3, c);
  }

  /** The select list, a space, and the rest of the line: the clauses of the query. */
  lemma AfterSelect1(a: string, b: string, c1: string, w1: string, o: string)
    requires b == "where " + c1 + o && w1 == " where " + c1
    ensures a + " " + b == a + w1 + o
  {
    assert " " + "where " == " where ";
    assert a + " " + b == a + (" " + "where ") + c1 + o;
  }

  lemma AfterSelect2(a: string, b: string, c1: string, c2: string, w1: string, w2: string, o: string)
    requires b == "where " + c1 + " and " + c2 + o && w1 == " where " + c1 && w2 == " and " + c2
    ensures a + " " + b == a + w1 + w2 + o
  {
    assert " " + "where " == " where ";
    assert a + " " + b == a + (" " + "where ") + c1 + (" and " + c2) + o;
  }

  lemma AfterSelectLines(a: string, b: string, c: string, c1: string, c2: string, j: string,
                         w1: string, w2: string, o: string)
    requires b == "where " + c1 + " and " + c2 && c == "order by " + j
    requires w1 == " where " + c1 && w2 == " and " + c2 && o == " order by " + j
    ensures a + " " + b + " " + c == a + w1 + w2 + o
  {
  }

  /**
   `destroy` on a cursor holding a database cursor clears that cursor once
   and leaves no cursor behind.
   */
  lemma DestroyClearsAndForgets()
    ensures var pc := DummyCursor().(cursor := Some(DbCursor(7)));
      Destroy(pc).0.cursor == None && Destroy(pc).1 == [DbCursor(7)]
  {
  }
}

=== FILE: query_decode.dfy ===
/**
 Reading a range query back: given the table's keys, columns and name, the
 text of a query determines which bounds it carries and their values. This
 is a left inverse of `RangeQuery.ConstructQuery` for a nonempty key list and
 plain bounds (no quote or backslash in a string value): the query encodes
 its bounds faithfully, clause by clause and value by value, in key order.
 */
module QueryDecode {

  import opened Wrappers
  import opened Text
  import opened SqlValue
  import opened RangeQuery
  import opened ValueList

  /**
   Decodes the condition part between the table name and `order by` into
   the values of the lower and of the upper bound, each absent when its
   comparison is absent.
   */
  function DecodeWhere(pks: seq<string>, w: string): Option<(Option<seq<Value>>, Option<seq<Value>>)> {
    var ge := " where " + KeyTuple(pks) + " >= (";
    var le := " where " + KeyTuple(pks) + " <= (";
    var andLe := " and " + KeyTuple(pks) + " <= (";
    if w == "" then Some((None, None))
    else if StartsWith(w, ge) then
      match ReadValues(w[|ge|..])
      case None => None
      case Some((lo, rest)) =>
        if rest == "" then Some((Some(lo), None))
        else if StartsWith(rest, andLe) then
          match ReadLastTuple(rest[|andLe|..])
          case None => None
          case Some(hi) => Some((Some(lo), Some(hi)))
        else None
    else if StartsWith(w, le) then
      match ReadLastTuple(w[|le|..])
      case None => None
      case Some(hi) => Some((None, Some(hi)))
    else None
  }

  /**
   Decodes a query for the table with keys `pks`, columns `cols` and name
   `table`: nothing unless it starts with the select list and ends with the
   `order by` clause and its condition part decodes.
   */
  function DecodeBounds(pks: seq<string>, cols: seq<string>, table: string, q: string)
    : Option<(Option<seq<Value>>, Option<seq<Value>>)>
  {
    var s, o := SelectClause(cols, table), OrderClause(pks);
    if |q| < |s| + |o| || q[..|s|] != s || q[|q| - |o|..] != o then None
    else DecodeWhere(pks, q[|s|..|q| - |o|])
  }

  /** Every string value the bound gives a key column needs no escaping. */
  predicate PlainBound(pks: seq<string>, m: Bound) {
    forall k :: k in pks ==> k in m && PlainValue(m[k])
  }

  predicate PlainIfGiven(pks: seq<string>, b: Option<Bound>) {
    b.Some? ==> PlainBound(pks, b.value)
  }

  lemma BoundValuesPlain(pks: seq<string>, m: Bound)
    requires PlainBound(pks, m)
    ensures AllPlain(BoundValues(pks, m))
  {
  }

  /**
   Round trip: decoding the query the cursor builds gives back which bounds
   were given and, for each, its values in primary-key order.
   */
  lemma DecodeConstructQuery(pks: seq<string>, cols: seq<string>, table: string,
                             from: Option<Bound>, to: Option<Bound>)
    requires |pks| > 0
    requires CoversIfGiven(pks, from) && CoversIfGiven(pks, to)
    requires PlainIfGiven(pks, from) && PlainIfGiven(pks, to)
    ensures DecodeBounds(pks, cols, table, ConstructQuery(pks, cols, table, from, to))
         == Some((BoundTuple(pks, from), BoundTuple(pks, to)))
  {
    var s, w, o := SelectClause(cols, table), WhereClause(pks, from, to), OrderClause(pks);
    var q := ConstructQuery(pks, cols, table, from, to);
    assert q == s + w + o;
    assert q[|s|..|q| - |o|] == w;
    DecodeWhereClause(pks, from, to);
  }

  lemma DecodeWhereClause(pks: seq<string>, from: Option<Bound>, to: Option<Bound>)
    requires |pks| > 0
    requires CoversIfGiven(pks, from) && CoversIfGiven(pks, to)
    requires PlainIfGiven(pks, from) && PlainIfGiven(pks, to)
    ensures DecodeWhere(pks, WhereClause(pks, from, to)) == Some((BoundTuple(pks, from), BoundTuple(pks, to)))
  {
    if from.Some? && to.Some? {
      DecodeBothBounds(pks, from.value, to.value);
    } else if from.Some? {
      DecodeLowerBound(pks, from.value);
    } else if to.Some? {
      DecodeUpperBound(pks, to.value);
    }
  }

  /** The text of ` where <comparison>`, cut before the value list. */
  lemma ConditionText(lead: string, kt: string, op: string, j: string)
    ensures lead + (kt + " " + op + " " + ("(" + j + ")")) == (lead + kt + " " + op + " (") + (j + ")")
  {
  }

  lemma DecodeLowerBound(pks: seq<string>, from: Bound)
    requires |pks| > 0 && Covers(pks, from) && PlainBound(pks, from)
    ensures DecodeWhere(pks, WhereClause(pks, Some(from), None)) == Some((Some(BoundValues(pks, from)), None))
  {
    var kt, lo := KeyTuple(pks), BoundValues(pks, from);
    var j := Join(Literals(lo), ", ");
    var ge := " where " + kt + " >= (";
    var w := WhereClause(pks, Some(from), None);
    assert w == ge + (j + ")") by {
      LowerBoundWhere(pks, from);
      ConditionText(" where ", kt, ">=", j);
    }
    SplitAfter(ge, j + ")");
    assert ReadValues(j + ")") == Some((lo, "")) by {
      BoundValuesPlain(pks, from);
      ReadValueTuple(lo, "");
      assert j + ")" + "" == j + ")";
    }
  }

  lemma DecodeUpperBound(pks: seq<string>, to: Bound)
    requires |pks| > 0 && Covers(pks, to) && PlainBound(pks, to)
    ensures DecodeWhere(pks, WhereClause(pks, None, Some(to))) == Some((None, Some(BoundValues(pks, to))))
  {
    var kt, hi := KeyTuple(pks), BoundValues(pks, to);
    var j := Join(Literals(hi), ", ");
    var ge := " where " + kt + " >= (";
    var le := " where " + kt + " <= (";
    var w := WhereClause(pks, None, Some(to));
    assert w == le + (j + ")") by {
      UpperBoundWhere(pks, to);
      ConditionText(" where ", kt, "<=", j);
    }
    SplitAfter(le, j + ")");
    assert !StartsWith(w, ge) by {
      var i := |" where " + kt| + 1;
      assert le[i] == '<' && ge[i] == '>';
      assert w[i] == le[i];
    }
    assert ReadLastTuple(j + ")") == Some(hi) by {
      BoundValuesPlain(pks, to);
      ReadLastValueTuple(hi);
    }
  }

  /** The two-bound condition, cut before each value list. */
  lemma BothBoundsText(pks: seq<string>, from: Bound, to: Bound)
    requires Covers(pks, from) && Covers(pks, to)
    ensures WhereClause(pks, Some(from), Some(to))
         == (" where " + KeyTuple(pks) + " >= (")
            + (Join(Literals(BoundValues(pks, from)), ", ") + ")"
               + ((" and " + KeyTuple(pks) + " <= (") + (Join(Literals(BoundValues(pks, to)), ", ") + ")")))
  {
    var kt := KeyTuple(pks);
    var j1, j2 := Join(Literals(BoundValues(pks, from)), ", "), Join(Literals(BoundValues(pks, to)), ", ");
    BothBoundsWhere(pks, from, to);
    assert Comparison(pks, ">=", from) == kt + " " + ">=" + " " + ("(" + j1 + ")");
    assert Comparison(pks, "<=", to) == kt + " " + "<=" + " " + ("(" + j2 + ")");
    BothConditionsText(kt, j1, j2);
  }

  lemma BothConditionsText(kt: string, j1: string, j2: string)
    ensures " where " + (kt + " " + ">=" + " " + ("(" + j1 + ")")) + (" and " + (kt + " " + "<=" + " " + ("(" + j2 + ")")))
         == (" where " + kt + " >= (") + (j1 + ")" + ((" and " + kt + " <= (") + (j2 + ")")))
  {
    ConditionText(" where ", kt, ">=", j1);
    ConditionText(" and ", kt, "<=", j2);
    Assoc(" where " + kt + " >= (", j1 + ")", (" and " + kt + " <= (") + (j2 + ")"));
  }

  lemma DecodeBothBounds(pks: seq<string>, from: Bound, to: Bound)
    requires |pks| > 0 && Covers(pks, from) && PlainBound(pks, from)
    requires Covers(pks, to) && PlainBound(pks, to)
    ensures DecodeWhere(pks, WhereClause(pks, Some(from), Some(to)))
         == Some((Some(BoundValues(pks, from)), Some(BoundValues(pks, to))))
  {
    var kt, lo, hi := KeyTuple(pks), BoundValues(pks, from), BoundValues(pks, to);
    var j1, j2 := Join(Literals(lo), ", "), Join(Literals(hi), ", ");
    var ge := " where " + kt + " >= (";
    var andLe := " and " + kt + " <= (";
    var tail := andLe + (j2 + ")");
    var w := WhereClause(pks, Some(from), Some(to));
    BothBoundsText(pks, from, to);
    SplitAfter(ge, j1 + ")" + tail);
    assert ReadValues(j1 + ")" + tail) == Some((lo, tail)) by {
      BoundValuesPlain(pks, from);
      ReadValueTuple(lo, tail);
    }
    assert tail != "";
    SplitAfter(andLe, j2 + ")");
    assert ReadLastTuple(j2 + ")") == Some(hi) by {
      BoundValuesPlain(pks, to);
      ReadLastValueTuple(hi);
    }
  }
}

=== FILE: query_form.dfy ===
/**
 The generated query is already in the normal form the test suite brings its
 expected strings into (the values of `strip` then `squeeze(' ')`, which the
 suite computes with their bang forms): single spaces only,
 nothing to trim. This holds whenever the names it is built from are
 single-spaced and no string bound value contains a run of spaces.
 */
module QueryForm {

  import opened Wrappers
  import opened Decimal
  import opened Text
  import opened Normalize
  import opened SqlValue
  import opened ValueList
  import opened RangeQuery

  /** Every name is nonempty, trimmed and single-spaced. */
  predicate SpacedNames(names: seq<string>) {
    forall i :: 0 <= i < |names| ==> SingleSpaced(names[i])
  }

  /** No string value the bound gives a key column contains a run of spaces. */
  predicate SpacedBound(pks: seq<string>, m: Bound) {
    forall k :: k in pks ==> k in m && (m[k].StrVal? ==> NoDoubleSpace(m[k].s))
  }

  predicate SpacedIfGiven(pks: seq<string>, b: Option<Bound>) {
    b.Some? ==> SpacedBound(pks, b.value)
  }

  /** A numeral holds no whitespace at all. */
  lemma NumeralSpaced(i: int)
    ensures SingleSpaced(ShowInt(i))
  {
  }

  lemma LiteralSpaced(v: Value)
    requires v.StrVal? ==> NoDoubleSpace(v.s)
    ensures SingleSpaced(Quote(v))
  {
  }

  lemma KeyTupleSpaced(pks: seq<string>)
    requires |pks| > 0 && SpacedNames(pks)
    ensures SingleSpaced(KeyTuple(pks))
  {
    SingleSpacedJoin(pks);
    SingleSpacedWrapped("(", Join(pks, ", "), ")");
  }

  lemma ValueTupleSpaced(pks: seq<string>, m: Bound)
    requires |pks| > 0 && Covers(pks, m) && SpacedBound(pks, m)
    ensures SingleSpaced(ValueTuple(BoundValues(pks, m)))
  {
    var ls := Literals(BoundValues(pks, m));
    forall i | 0 <= i < |ls| ensures SingleSpaced(ls[i]) {
      assert pks[i] in pks;
      LiteralSpaced(m[pks[i]]);
    }
    SingleSpacedJoin(ls);
    SingleSpacedWrapped("(", Join(ls, ", "), ")");
  }

  lemma ComparisonSpaced(pks: seq<string>, op: string, m: Bound)
    requires |pks| > 0 && SpacedNames(pks) && Covers(pks, m) && SpacedBound(pks, m)
    requires op == ">=" || op == "<="
    ensures SingleSpaced(Comparison(pks, op, m))
  {
    KeyTupleSpaced(pks);
    ValueTupleSpaced(pks, m);
    assert SingleSpaced(op);
    SingleSpacedAround(KeyTuple(pks), " ", op);
    SingleSpacedAround(KeyTuple(pks) + " " + op, " ", ValueTuple(BoundValues(pks, m)));
  }

  /** Two single-spaced phrases around one of the query's keywords stay single-spaced. */
  lemma KeywordSpaced(a: string, kw: string, b: string)
    requires SingleSpaced(a) && SingleSpaced(b)
    requires kw == " from " || kw == " where " || kw == " and " || kw == " order by "
    ensures SingleSpaced(a + kw + b)
  {
  }

  lemma SelectClauseSpaced(cols: seq<string>, table: string)
    requires |cols| > 0 && SpacedNames(cols) && SingleSpaced(table)
    ensures SingleSpaced(SelectClause(cols, table))
  {
    var j := Join(cols, ", ");
    SingleSpacedJoin(cols);
    NoDoubleSpaceConcat("select ", j);
    KeywordSpaced("select " + j, " from ", table);
  }

  /**
   Under single-spaced names and bound strings, the query is single-spaced
   and trimmed, so `strip` followed by `squeeze(' ')` leaves it unchanged.
   */
  lemma ConstructQueryNormalized(pks: seq<string>, cols: seq<string>, table: string,
                                 from: Option<Bound>, to: Option<Bound>)
    requires |pks| > 0 && |cols| > 0
    requires SpacedNames(pks) && SpacedNames(cols) && SingleSpaced(table)
    requires CoversIfGiven(pks, from) && CoversIfGiven(pks, to)
    requires SpacedIfGiven(pks, from) && SpacedIfGiven(pks, to)
    ensures SingleSpaced(ConstructQuery(pks, cols, table, from, to))
    ensures Normalized(ConstructQuery(pks, cols, table, from, to)) == ConstructQuery(pks, cols, table, from, to)
  {
    var q := ConstructQuery(pks, cols, table, from, to);
    var s, jp := SelectClause(cols, table), Join(pks, ", ");
    SelectClauseSpaced(cols, table);
    SingleSpacedJoin(pks);
    var head: string;
    if from.Some? && to.Some? {
      var c1, c2 := Comparison(pks, ">=", from.value), Comparison(pks, "<=", to.value);
      ComparisonSpaced(pks, ">=", from.value);
      ComparisonSpaced(pks, "<=", to.value);
      BothBoundsQuery(pks, cols, table, from.value, to.value);
      KeywordSpaced(s, " where ", c1);
      KeywordSpaced(s + " where " + c1, " and ", c2);
      head := s + " where " + c1 + " and " + c2;
    } else if from.Some? {
      var c := Comparison(pks, ">=", from.value);
      ComparisonSpaced(pks, ">=", from.value);
      LowerBoundOnlyQuery(pks, cols, table, from.value);
      KeywordSpaced(s, " where ", c);
      head := s + " where " + c;
    } else if to.Some? {
      var c := Comparison(pks, "<=", to.value);
      ComparisonSpaced(pks, "<=", to.value);
      UpperBoundOnlyQuery(pks, cols, table, to.value);
      KeywordSpaced(s, " where ", c);
      head := s + " where " + c;
    } else {
      head := s;
    }
    assert q == head + OrderClause(pks);
    Assoc(head, " order by ", jp);
    KeywordSpaced(head, " order by ", jp);
    NormalizedFixedPoint(q);
  }
}

=== FILE: range_query.dfy ===
/**
 The primary-key range query of a proxy cursor:

   select <columns> from <table>[ where (<keys>) >= (<lower values>)][ and|where (<keys>) <= (<upper values>)] order by <keys>

 Key names and bound values are listed in primary-key order, joined by ", ";
 the `order by` clause is always present and always last.
 */
module RangeQuery {

  import opened Wrappers
  import opened Text
  import opened SqlValue
  import opened ValueList

  /** A bound: a value for every primary-key column (Ruby hash from column name to value). */
  type Bound = map<string, Value>

  /** Every primary-key column has a value in the bound. */
  predicate Covers(pks: seq<string>, m: Bound) {
    forall k :: k in pks ==> k in m
  }

  /** The bound, if given, names every primary-key column. */
  predicate CoversIfGiven(pks: seq<string>, b: Option<Bound>) {
    b.Some? ==> Covers(pks, b.value)
  }

  /** The bound's values, looked up in primary-key order. */
  function BoundValues(pks: seq<string>, m: Bound): (vs: seq<Value>)
    requires Covers(pks, m)
    ensures |vs| == |pks|
    ensures forall i :: 0 <= i < |pks| ==> pks[i] in m && vs[i] == m[pks[i]]
  {
    seq(|pks|, i requires 0 <= i < |pks| => m[pks[i]])
  }

  /** The values of an optional bound, in primary-key order. */
  function BoundTuple(pks: seq<string>, b: Option<Bound>): (r: Option<seq<Value>>)
    requires CoversIfGiven(pks, b)
    ensures r.Some? <==> b.Some?
    ensures r.Some? ==> |r.value| == |pks|
  {
    match b
    case None => None
    case Some(m) => Some(BoundValues(pks, m))
  }

  /** `(<pk1>, <pk2>, ...)`: parenthesised even for a single key. */
  function KeyTuple(pks: seq<string>): string {
    "(" + Join(pks, ", ") + ")"
  }

  /** `(<v1>, <v2>, ...)`: every value through the quoting function. */
  function ValueTuple(vs: seq<Value>): string {
    "(" + Join(Literals(vs), ", ") + ")"
  }

  /** `(<pks>) <op> (<values>)` for one bound. */
  function Comparison(pks: seq<string>, op: string, m: Bound): string
    requires Covers(pks, m)
  {
    KeyTuple(pks) + " " + op + " " + ValueTuple(BoundValues(pks, m))
  }

  function SelectClause(cols: seq<string>, table: string): string {
    "select " + Join(cols, ", ") + " from " + table
  }

  function OrderClause(pks: seq<string>): string {
    " order by " + Join(pks, ", ")
  }

  /**
   The condition part between the table name and `order by`: ` where` when
   any bound is given, the `>=` comparison for a lower bound, ` and` when
   both are given, the `<=` comparison for an upper bound.
   */
  function WhereClause(pks: seq<string>, from: Option<Bound>, to: Option<Bound>): (w: string)
    requires CoversIfGiven(pks, from) && CoversIfGiven(pks, to)
    ensures w == "" <==> from.None? && to.None?
  {
    (if from.Some? || to.Some? then " where" else "")
    + (if from.Some? then " " + Comparison(pks, ">=", from.value) else "")
    + (if from.Some? && to.Some? then " and" else "")
    + (if to.Some? then " " + Comparison(pks, "<=", to.value) else "")
  }

  /**
   `ProxyCursor#construct_query(from, to)` for a table with primary keys
   `pks` and full column list `cols`. The query always starts with the
   select list and always ends with the `order by` clause.
   */
  function ConstructQuery(pks: seq<string>, cols: seq<string>, table: string,
                          from: Option<Bound>, to: Option<Bound>): (q: string)
    requires CoversIfGiven(pks, from) && CoversIfGiven(pks, to)
    ensures |q| >= |SelectClause(cols, table)| + |OrderClause(pks)|
    ensures q[..|SelectClause(cols, table)|] == SelectClause(cols, table)
    ensures q[|q| - |OrderClause(pks)|..] == OrderClause(pks)
    ensures (|q| == |SelectClause(cols, table)| + |OrderClause(pks)|) <==> from.None? && to.None?
  {
    var s, w, o := SelectClause(cols, table), WhereClause(pks, from, to), OrderClause(pks);
    assert (s + w + o)[..|s|] == s;
    assert (s + w + o)[|s + w|..] == o;
    s + w + o
  }

  // ---------------------------------------------------------------------------
  // The four shapes, stated against the query without bounds
  // ---------------------------------------------------------------------------

  /** Without bounds there is no condition: just the select list and the ordering. */
  lemma NoBoundsQuery(pks: seq<string>, cols: seq<string>, table: string)
    ensures ConstructQuery(pks, cols, table, None, None)
         == "select " + Join(cols, ", ") + " from " + table + " order by " + Join(pks, ", ")
  {
  }

  /**
   A lower bound alone inserts ` where (<pks>) >= (<values>)` between the
   table name and `order by` of the query without bounds.
   */
  lemma LowerBoundOnlyQuery(pks: seq<string>, cols: seq<string>, table: string, from: Bound)
    requires Covers(pks, from)
    ensures ConstructQuery(pks, cols, table, Some(from), None)
         == SelectClause(cols, table) + " where " + Comparison(pks, ">=", from) + OrderClause(pks)
  {
  }

  /** An upper bound alone gets its own ` where`: no `and`, no `>=` comparison. */
  lemma UpperBoundOnlyQuery(pks: seq<string>, cols: seq<string>, table: string, to: Bound)
    requires Covers(pks, to)
    ensures ConstructQuery(pks, cols, table, None, Some(to))
         == SelectClause(cols, table) + " where " + Comparison(pks, "<=", to) + OrderClause(pks)
  {
  }

  /**
   With both bounds the `>=` comparison comes first and the `<=` comparison
   is joined to it by ` and`, inside a single `where`.
   */
  lemma BothBoundsQuery(pks: seq<string>, cols: seq<string>, table: string, from: Bound, to: Bound)
    requires Covers(pks, from) && Covers(pks, to)
    ensures ConstructQuery(pks, cols, table, Some(from), Some(to))
         == SelectClause(cols, table) + " where " + Comparison(pks, ">=", from)
            + " and " + Comparison(pks, "<=", to) + OrderClause(pks)
  {
  }

  lemma LowerBoundWhere(pks: seq<string>, from: Bound)
    requires Covers(pks, from)
    ensures WhereClause(pks, Some(from), None) == " where " + Comparison(pks, ">=", from)
  {
  }

  lemma UpperBoundWhere(pks: seq<string>, to: Bound)
    requires Covers(pks, to)
    ensures WhereClause(pks, None, Some(to)) == " where " + Comparison(pks, "<=", to)
  {
  }

  lemma BothBoundsWhere(pks: seq<string>, from: Bound, to: Bound)
    requires Covers(pks, from) && Covers(pks, to)
    ensures WhereClause(pks, Some(from), Some(to))
         == " where " + Comparison(pks, ">=", from) + (" and " + Comparison(pks, "<=", to))
  {
  }

  /** On a one-column key the comparison is `(<key>) <op> (<literal of the value>)`. */
  lemma SingleKeyComparison(key: string, op: string, v: Value)
    ensures Comparison([key], op, map[key := v]) == "(" + key + ") " + op + " (" + Quote(v) + ")"
  {
  }
}

=== FILE: sql_value.dfy ===
/**
 Bound values and their SQL literal form. The session's quoting renders an
 integer bare and a string in PostgreSQL's escape-string form `E'…'`.
 */
module SqlValue {

  import opened Wrappers
  import opened Decimal

  /** A primary-key bound value, as the tests supply them: integers and strings. */
  datatype Value = IntVal(i: int) | StrVal(s: string)

  /**
   Text that needs no escaping inside `E'…'`: neither a quote, which would end
   the literal, nor a backslash, which starts an escape sequence there.
   */
  predicate PlainText(s: string) {
    forall i :: 0 <= i < |s| ==> s[i] != '\'' && s[i] != '\\'
  }

  predicate PlainValue(v: Value) {
    v.StrVal? ==> PlainText(v.s)
  }

  /** The SQL literal of a bound value. */
  function Quote(v: Value): (r: string)
    ensures |r| > 0
    ensures r[0] == 'E' <==> v.StrVal?
    ensures v.StrVal? ==> |r| == |v.s| + 3 && r[..2] == "E'" && r[2..|r| - 1] == v.s && r[|r| - 1] == '\''
    ensures v.IntVal? ==> IsDigit(r[|r| - 1]) && (AllDigits(r) <==> v.i >= 0)
  {
    match v
    case IntVal(i) => ShowInt(i)
    case StrVal(s) => "E'" + s + "'"
  }

  /** Splits `s` at its first quote: the text before it and the text after it. */
  function ScanText(s: string): (r: Option<(string, string)>)
    ensures r.Some? ==> |r.value.1| < |s|
  {
    if |s| == 0 then None
    else if s[0] == '\'' then Some(([], s[1..]))
    else
      match ScanText(s[1..])
      case None => None
      case Some((t, rest)) => Some(([s[0]] + t, rest))
  }

  /** Reads one literal at the front of `s`, returning its value and the text after it. */
  function ReadLiteral(s: string): (r: Option<(Value, string)>)
    ensures r.Some? ==> |r.value.1| < |s|
  {
    if |s| >= 2 && s[0] == 'E' && s[1] == '\'' then
      match ScanText(s[2..])
      case None => None
      case Some((t, rest)) => Some((StrVal(t), rest))
    else
      match ReadInt(s)
      case None => None
      case Some((i, rest)) => Some((IntVal(i), rest))
  }

  lemma {:induction false} ScanPlainText(t: string, rest: string)
    requires PlainText(t)
    ensures ScanText(t + "'" + rest) == Some((t, rest))
  {
    if |t| > 0 {
      assert (t + "'" + rest)[1..] == t[1..] + "'" + rest;
      ScanPlainText(t[1..], rest);
      assert [t[0]] + t[1..] == t;
    } else {
      assert t + "'" + rest == "'" + rest;
    }
  }

  /**
   Round trip: the literal of a plain value, followed by text that does not
   continue it, reads back as that value and leaves exactly that text.
   */
  lemma ReadQuote(v: Value, rest: string)
    requires PlainValue(v)
    requires |rest| == 0 || !IsDigit(rest[0])
    ensures ReadLiteral(Quote(v) + rest) == Some((v, rest))
  {
    match v
    case IntVal(i) =>
      var s := Quote(v) + rest;
      assert !(s[0] == 'E');
      ReadShowInt(i, rest);
    case StrVal(t) =>
      var s := Quote(v) + rest;
      assert s[2..] == t + "'" + rest;
      ScanPlainText(t, rest);
  }

  /** Distinct plain values have distinct literals. */
  lemma QuoteInjective(v: Value, w: Value)
    requires PlainValue(v) && PlainValue(w)
    requires Quote(v) == Quote(w)
    ensures v == w
  {
    ReadQuote(v, "");
    ReadQuote(w, "");
    assert Quote(v) + "" == Quote(v);
    assert Quote(w) + "" == Quote(w);
  }
}

=== FILE: text.dfy ===
/**
 String helpers the query builder is made of: Ruby's `Array#join` and the
 spacing discipline that makes a generated query single-spaced.
 */
module Text {

  /** Ruby's `Array#join(sep)`: the elements in order, `sep` between neighbours. */
  function Join(xs: seq<string>, sep: string): (r: string)
    ensures |xs| == 0 ==> r == ""
    ensures |xs| == 1 ==> r == xs[0]
  {
    if |xs| == 0 then ""
    else if |xs| == 1 then xs[0]
    else xs[0] + sep + Join(xs[1..], sep)
  }

  /** The characters Ruby's `String#strip` removes: space, tab to carriage return, and NUL. */
  predicate IsWhitespace(c: char) {
    c == ' ' || ('\t' <= c <= '\r') || c == '\0'
  }

  /** Joining a list made of two nonempty parts joins the joined parts. */
  lemma {:induction false} JoinAppend(xs: seq<string>, ys: seq<string>, sep: string)
    requires |xs| > 0 && |ys| > 0
    ensures Join(xs + ys, sep) == Join(xs, sep) + sep + Join(ys, sep)
    decreases |xs|
  {
    if |xs| == 1 {
      assert (xs + ys)[1..] == ys;
    } else {
      JoinAppend(xs[1..], ys, sep);
      assert (xs + ys)[1..] == xs[1..] + ys;
    }
  }

  /** `s` begins with `p`. */
  predicate StartsWith(s: string, p: string) {
    |p| <= |s| && s[..|p|] == p
  }

  /** `p + x` begins with `p`, and what follows `p` is `x`. */
  lemma SplitAfter(p: string, x: string)
    ensures StartsWith(p + x, p) && (p + x)[|p|..] == x
  {
  }

  /** A prefix of a prefix is a prefix. */
  lemma StartsWithTrans(s: string, p: string, r: string)
    requires StartsWith(s, p) && StartsWith(p, r)
    ensures StartsWith(s, r)
  {
    assert s[..|r|] == s[..|p|][..|r|];
  }

  /** A string does not begin with a text whose first character differs from its own. */
  lemma FirstCharDiffers(s: string, p: string)
    requires |s| > 0 && |p| > 0 && s[0] != p[0]
    ensures !StartsWith(s, p)
  {
    if |p| <= |s| {
      assert s[..|p|][0] == s[0];
    }
  }

  /** `s` ends with `p`. */
  predicate EndsWith(s: string, p: string) {
    |p| <= |s| && s[|s| - |p|..] == p
  }

  /** No two adjacent spaces: what `squeeze(' ')` leaves unchanged. */
  predicate NoDoubleSpace(s: string) {
    forall i :: 0 < i < |s| ==> !(s[i - 1] == ' ' && s[i] == ' ')
  }

  /**
   A nonempty string with no whitespace at either end and no run of spaces:
   the shape of a normalised expected query in the test suite.
   */
  predicate SingleSpaced(s: string) {
    && |s| > 0
    && !IsWhitespace(s[0])
    && !IsWhitespace(s[|s| - 1])
    && NoDoubleSpace(s)
  }

  /** Gluing two strings creates a run of spaces only where they meet. */
  lemma NoDoubleSpaceConcat(a: string, b: string)
    requires NoDoubleSpace(a) && NoDoubleSpace(b)
    requires |a| == 0 || |b| == 0 || a[|a| - 1] != ' ' || b[0] != ' '
    ensures NoDoubleSpace(a + b)
  {
  }

  /** Two single-spaced strings with a separator between them stay single-spaced. */
  lemma SingleSpacedAround(a: string, sep: string, b: string)
    requires SingleSpaced(a) && SingleSpaced(b)
    requires sep == " " || sep == ", "
    ensures SingleSpaced(a + sep + b)
  {
  }

  /** A single-spaced string wrapped in delimiters that are not whitespace stays single-spaced. */
  lemma SingleSpacedWrapped(open: string, a: string, close: string)
    requires NoDoubleSpace(a)
    requires |open| > 0 && !IsWhitespace(open[0]) && open[|open| - 1] != ' ' && NoDoubleSpace(open)
    requires |close| > 0 && close[0] != ' ' && !IsWhitespace(close[|close| - 1]) && NoDoubleSpace(close)
    ensures SingleSpaced(open + a + close)
  {
  }

  /** Joining single-spaced items with `", "` gives a single-spaced list. */
  lemma {:induction false} SingleSpacedJoin(xs: seq<string>)
    requires |xs| > 0
    requires forall i :: 0 <= i < |xs| ==> SingleSpaced(xs[i])
    ensures SingleSpaced(Join(xs, ", "))
  {
    if |xs| > 1 {
      SingleSpacedJoin(xs[1..]);
      SingleSpacedAround(xs[0], ", ", Join(xs[1..], ", "));
    }
  }

  /** Regrouping a concatenation. */
  lemma Assoc(a: string, b: string, c: string)
    ensures a + b + c == a + (b + c)
  {
  }

  lemma Assoc5(a: string, b: string, c: string, d: string, e: string)
    ensures a + b + c + d + e == a + b + (c + d + e)
  {
  }
}

=== FILE: value_list.dfy ===
/**
 Value lists as they appear in a range query, `(v1, v2, ...)`: every value
 through the quoting function, joined by ", ", and the reader that takes
 such a list apart again.
 */
module ValueList {

  import opened Wrappers
  import opened Text
  import opened SqlValue

  /** The SQL literal of each value, in order. */
  function Literals(vs: seq<Value>): (ls: seq<string>)
    ensures |ls| == |vs|
    ensures forall i :: 0 <= i < |vs| ==> ls[i] == Quote(vs[i])
  {
    seq(|vs|, i requires 0 <= i < |vs| => Quote(vs[i]))
  }

  /**
   Reads `v1, v2, ..., vn)` — one or more literals separated by ", " and the
   closing parenthesis — returning the values and the text after it.
   */
  function ReadValues(s: string): (r: Option<(seq<Value>, string)>)
    ensures r.Some? ==> |r.value.0| > 0
    decreases |s|
  {
    match ReadLiteral(s)
    case None => None
    case Some((v, rest)) =>
      if StartsWith(rest, ", ") then
        match ReadValues(rest[2..])
        case None => None
        case Some((vs, after)) => Some(([v] + vs, after))
      else if StartsWith(rest, ")") then Some(([v], rest[1..]))
      else None
  }

  /** Reads the text that must be followed by nothing but a value tuple closed by `)`. */
  function ReadLastTuple(s: string): Option<seq<Value>> {
    match ReadValues(s)
    case Some((vs, after)) => if after == "" then Some(vs) else None
    case None => None
  }

  predicate AllPlain(vs: seq<Value>) {
    forall i :: 0 <= i < |vs| ==> PlainValue(vs[i])
  }

  /** A literal followed by `)` ends a tuple. */
  lemma ReadClosingLiteral(v: Value, rest: string)
    requires PlainValue(v)
    ensures ReadValues(Quote(v) + ")" + rest) == Some(([v], rest))
  {
    var after := ")" + rest;
    Assoc(Quote(v), ")", rest);
    ReadQuote(v, after);
    FirstCharDiffers(after, ", ");
    assert StartsWith(after, ")") by { assert after[..1] == ")"; }
    assert after[1..] == rest;
  }

  /** A literal followed by `, ` continues a tuple with the values after it. */
  lemma ReadContinuedLiteral(v: Value, tail: string)
    requires PlainValue(v)
    ensures ReadValues(Quote(v) + ", " + tail) == match ReadValues(tail)
      case None => None
      case Some((vs, after)) => Some(([v] + vs, after))
  {
    var after := ", " + tail;
    Assoc(Quote(v), ", ", tail);
    ReadQuote(v, after);
    assert StartsWith(after, ", ") by { assert after[..2] == ", "; }
    assert after[2..] == tail;
  }

  /** A tuple of plain values, closed and followed by anything, reads back exactly. */
  lemma {:induction false} ReadValueTuple(vs: seq<Value>, rest: string)
    requires |vs| > 0 && AllPlain(vs)
    ensures ReadValues(Join(Literals(vs), ", ") + ")" + rest) == Some((vs, rest))
    decreases |vs|
  {
    if |vs| == 1 {
      ReadSingletonTuple(vs, rest);
    } else {
      ReadValueTuple(vs[1..], rest);
      ReadLongerTuple(vs, rest);
    }
  }

  lemma ReadSingletonTuple(vs: seq<Value>, rest: string)
    requires |vs| == 1 && AllPlain(vs)
    ensures ReadValues(Join(Literals(vs), ", ") + ")" + rest) == Some((vs, rest))
  {
    var v := vs[0];
    var t := Join(Literals(vs), ", ") + ")" + rest;
    assert t == Quote(v) + ")" + rest;
    ReadClosingLiteral(v, rest);
    assert [v] == vs;
  }

  lemma ReadLongerTuple(vs: seq<Value>, rest: string)
    requires |vs| > 1 && AllPlain(vs)
    requires ReadValues(Join(Literals(vs[1..]), ", ") + ")" + rest) == Some((vs[1..], rest))
    ensures ReadValues(Join(Literals(vs), ", ") + ")" + rest) == Some((vs, rest))
  {
    var t := Join(Literals(vs[1..]), ", ") + ")" + rest;
    var whole := Join(Literals(vs), ", ") + ")" + rest;
    assert whole == Quote(vs[0]) + ", " + t by {
      SplitTupleText(vs, rest);
    }
    assert ReadValues(Quote(vs[0]) + ", " + t) == Some(([vs[0]] + vs[1..], rest)) by {
      ReadContinuedLiteral(vs[0], t);
    }
    assert [vs[0]] + vs[1..] == vs;
  }

  lemma SplitTupleText(vs: seq<Value>, rest: string)
    requires |vs| > 1
    ensures Join(Literals(vs), ", ") + ")" + rest
         == Quote(vs[0]) + ", " + (Join(Literals(vs[1..]), ", ") + ")" + rest)
  {
    JoinLiterals(vs);
    Assoc5(Quote(vs[0]), ", ", Join(Literals(vs[1..]), ", "), ")", rest);
  }

  /** The literals of a tuple of two or more values: the first, then the rest. */
  lemma JoinLiterals(vs: seq<Value>)
    requires |vs| > 1
    ensures Join(Literals(vs), ", ") == Quote(vs[0]) + ", " + Join(Literals(vs[1..]), ", ")
  {
    assert Literals(vs[1..]) == Literals(vs)[1..];
  }

  lemma ReadLastValueTuple(vs: seq<Value>)
    requires |vs| > 0 && AllPlain(vs)
    ensures ReadLastTuple(Join(Literals(vs), ", ") + ")") == Some(vs)
  {
    ReadValueTuple(vs, "");
    assert Join(Literals(vs), ", ") + ")" + "" == Join(Literals(vs), ", ") + ")";
  }
}

=== FILE: wrappers.dfy ===
/** Failure-carrying result types shared by the rest of the model. */
module Wrappers {

  /** An optional value: the model's stand-in for Ruby's `nil`. */
  datatype Option<+T> = None | Some(value: T)

  /** A computation that either succeeds with a value or fails with an error. */
  datatype Result<+R, +E> = Success(value: R) | Failure(error: E)
}
